=== FILE: README.md ===
# Stock app core in Dafny

A Dafny model of the data layer of a React Native stock-market app. The app
reads market data from the Alpha Vantage HTTP API, keeps responses in an
expiring cache on the device, substitutes synthetic data when some requests
fail, and keeps user watchlists in device storage. The model covers:

- the expiring cache and the change/percentage helpers of `src/utils/cache.js`
  (module `Cache`);
- the API client of `src/api/stockApi.js`: the classification of responses in
  `makeRequest`, the cache key of each endpoint wrapper, the read-through
  cache in front of every request, which wrappers rethrow and which return
  synthetic data, and the synthetic payloads themselves (modules `StockApi`
  and `MockData`);
- the watchlist operations of `src/context/WatchlistContext.js`
  (module `Watchlists`);
- the filtered and sorted list of `src/screens/ViewAllScreen.js`
  (module `ViewAll`);
- the sentiment badge, relative publication time and ticker chips of
  `src/components/NewsCard.js` (module `NewsCard`).

Support modules: `Wrappers` (`Option`, `Result`), `Seqs` (filter,
subsequences, a stable insertion sort), `Strings` (JavaScript string
operations on `seq<char>`), `Json` (payloads and JavaScript truthiness) and
`Theme` (the three colours the helpers pick from).

Modelling choices:

- Device storage is a `map<string, Stored>`. A slot holds a record
  `{data, timestamp}`, an empty string, or text that does not parse to an
  object. Storage calls that reject are modelled by the flags of `Io`.
- JSON numbers carry the text `String(n)` prints. Truthiness (`0` is falsy)
  and the leading `-` test of `isPositiveChange` therefore work without
  floating point.
- A wrapper call is one transition `Fetch`/`ReadThrough`. It takes the
  storage, the clock value, the TTL, the storage faults and what the network
  returned. It yields the new storage, the outcome (`Returned` or `Thrown`)
  and whether a request was made.
- Watchlist operations are pure functions on a `Book`, which holds the
  in-memory list and the list last written to storage. The storage write is
  a `saveOk` flag. A failed write changes nothing and surfaces as
  `Failure(SaveFailed)`.
- The clock, `Math.random`, `Date` parsing and formatting, and `parseFloat`
  are parameters. See "Left out".

Behaviour of the code that the model keeps:

- Cache keys are not injective. The intraday key ignores the output size,
  the news key ignores topics, dates and sort order, the MACD key ignores the
  periods, and an underscore inside a parameter lets two different calls
  share one key. `StockApi` proves these collisions. It also proves that
  calls to different endpoints, and intraday calls for different intervals
  of one symbol, never share a key.
- A record written at time 0 carries a falsy timestamp and never expires
  (`StockApi.EpochZeroNeverExpires`), so `StockApi.RefreshScenario` makes its
  first write at t=1.
- A cached value that is falsy counts as a miss and is fetched again.

## Model

| member | source | states |
|---|---|---|
| `Cache.GetCachedData` | src/utils/cache.js:4-23 | A read returns the stored data only for a live record. A record older than the TTL, with a non-zero timestamp, reads as null and is evicted exactly when both storage calls succeed. Every other slot and every storage error reads as null and leaves storage unchanged. |
| `Cache.SetCachedData` | src/utils/cache.js:25-35 | A write stores `Record(data, now)` under the key and touches no other key. A failed write leaves storage unchanged. |
| `Cache.SetThenGetFresh` | src/utils/cache.js:4-35 | Data written at t0 and read at t1 with t1 - t0 <= TTL comes back unchanged, and nothing is evicted. |
| `Cache.SetThenGetExpired` | src/utils/cache.js:4-35 | Data written at a non-zero t0 and read more than TTL later reads as null, and the key is removed. |
| `Cache.UntimedNeverExpires` | src/utils/cache.js:11-16 | A record with a zero (falsy) timestamp is served at any time. |
| `Cache.ClearCache` | src/utils/cache.js:37-50 | Clearing removes exactly the keys under the four cache prefixes and keeps every other entry. When a storage call fails, it removes nothing. |
| `Cache.ClearCacheIdempotent` | src/utils/cache.js:37-50 | Clearing twice equals clearing once. |
| `Cache.IsPositiveChange` | src/utils/cache.js:100-104 | A falsy change is never positive. A truthy one is positive exactly when its text is empty or does not start with '-'. |
| `Cache.PositiveChangeOfString` | src/utils/cache.js:100-104 | A string change is positive exactly when it is non-empty and does not start with '-'. |
| `Cache.PositiveChangeOfInt` | src/utils/cache.js:100-104 | An integer change is positive exactly when it is greater than zero. Zero is falsy. |
| `Cache.ChangeColor` | src/utils/cache.js:106-108 | The colour is always the positive or the negative one, and it is the positive one exactly when the change is positive (given distinct colours). |
| `Cache.FormatPercentage` | src/utils/cache.js:61-66 | The result always contains '%'. A falsy value gives "0.00%". A text that already holds '%' passes through unchanged. |
| `Cache.FormatPercentageIdempotent` | src/utils/cache.js:61-66 | Formatting an already formatted percentage changes nothing. |
| `StockApi.MakeRequest` | src/api/stockApi.js:10-44 | A request succeeds exactly when the response is ok and its body is non-null JSON with none of the three error fields, and it returns that body. Otherwise the first failing check decides the error, in source order. No response gives the network message. A failed status gives the HTTP status. A null body gives the engine's TypeError. Then come Error Message (with its value), Note (rate limit) and Information (with its value). |
| `StockApi.ErrorText` | src/api/stockApi.js:20-37 | A network failure keeps the message it carries. An HTTP error is "HTTP error! status: " followed by the status. An error message is the field's text. The rate-limit text is fixed. An information error is "API Information: " followed by the field's text. Only the null-body TypeError has no text in the model (see "Left out"). |
| `StockApi.HttpErrorTextInjective` | src/api/stockApi.js:21-23 | Different HTTP statuses give different error messages. |
| `StockApi.CacheKey` | src/api/stockApi.js:240-748 | Every key starts with its endpoint's literal. Single-symbol endpoints append exactly the symbol. Search appends exactly the keywords. Top gainers/losers and market status use the literal alone. |
| `StockApi.EndpointsSeparate` | src/api/stockApi.js:240-748 | Calls to different endpoints never share a key. |
| `StockApi.IntradayIntervalsSeparate` | src/api/stockApi.js:281-283 | Intraday keys for different intervals of one symbol differ. |
| `StockApi.IntradayKeyIgnoresOutputSize` | src/api/stockApi.js:281-283 | Intraday calls that differ only in output size share one key. |
| `StockApi.NewsKeyIgnoresTopics` | src/api/stockApi.js:327-329 | News calls with the same tickers and limit share one key, whatever their topics, dates and sort. |
| `StockApi.MacdKeyIgnoresPeriods` | src/api/stockApi.js:696-698 | MACD calls with the same symbol and interval share one key. |
| `StockApi.UnderscoreCollision` | src/api/stockApi.js:281-283 | Two different intraday calls share a key through an underscore in the symbol. News with no tickers and news for the tickers "all" also share a key. |
| `StockApi.ClearCacheScope` | src/utils/cache.js:40-45 | `clearCache` removes the key of exactly four wrappers: top gainers/losers, company overview, daily time series and symbol search. |
| `StockApi.ClearedKeysFallBack` | src/utils/cache.js:40-45 | Every wrapper whose key `clearCache` removes returns synthetic data when its request fails. |
| `StockApi.FallbackOf` | src/api/stockApi.js:238-780 | Five wrappers fall back to a generator on failure: top gainers/losers, company overview, news, daily series and search. Overview, search and news pass their own arguments to it. All other wrappers rethrow. |
| `StockApi.PolicyOf` | src/api/stockApi.js:253-766 | A wrapper returns synthetic data on failure exactly when it is one of the five with a fallback. Every other wrapper rethrows. |
| `StockApi.ReadThrough` | src/api/stockApi.js:238-257 | A request is made exactly when the cache lookup does not give a truthy live value. On a hit, storage is unchanged and the cached value is returned. A successful response is returned, and it is stored when the write succeeds. When the write fails, or the request fails, the key gets nothing new: it keeps its old entry, or is left absent when the lookup evicted an expired record. On failure the error is rethrown or the fallback returned. No other key changes in either case. |
| `StockApi.Fetch` | src/api/stockApi.js:238-780 | A wrapper call hits the cache exactly when its key holds a truthy live value. On failure a wrapper without a fallback throws the request's error, and a wrapper with one returns its generator's payload. After a failure, storage is a subset of what it was. |
| `StockApi.SnapshotFallbackStamped` | src/api/stockApi.js:253-256 | The top-gainers fallback carries the current time as `last_updated`. |
| `StockApi.SeriesFallbackIsRandom` | src/api/stockApi.js:740-743 | The daily-series fallback is the random series for the symbol, whatever the output size. |
| `StockApi.OverviewFallbackEchoes` | src/api/stockApi.js:141-198 | The overview fallback names the requested symbol: Symbol = symbol, Name = symbol + " Inc.". |
| `StockApi.SearchFallbackEchoes` | src/api/stockApi.js:762-778 | The search fallback is one match whose symbol is the upper-cased query. |
| `StockApi.FallbackNotCached` | src/api/stockApi.js:305-325 | After a fallback, a read of the same key at the same time is still a miss. |
| `StockApi.StoredThenServed` | src/api/stockApi.js:238-257 | A stored truthy response is served by the next call within the TTL, and that call makes no request. |
| `StockApi.ExpiredThenRefreshed` | src/api/stockApi.js:259-279 | After the TTL, the call makes a new request and the new response replaces the old one. |
| `StockApi.EpochZeroNeverExpires` | src/utils/cache.js:11 | A response stored at time 0 is served at any later time without a request. |
| `StockApi.RefreshScenario` | src/api/stockApi.js:259-279 | With TTL 3600000 and a write at t=1, the call at t=1800001 is served from the cache. The call at t=3700001 requests again, returns price 151 and stores it. |
| `StockApi.OverviewFallbackScenario` | src/api/stockApi.js:305-325 | A failed overview request for "ZZZZ" returns the synthetic overview for "ZZZZ" and leaves its key unwritten. |
| `MockData.MockTopGainersLosers` | src/api/stockApi.js:46-139 | The snapshot carries the given timestamp and the fixed gainer and loser lists. |
| `MockData.MockSnapshotSigns` | src/api/stockApi.js:46-139 | Every synthetic gainer's change percentage does not start with '-', and every loser's does. |
| `MockData.MockCompanyOverview` | src/api/stockApi.js:141-198 | The synthetic overview's Symbol is the argument and its Name is the argument + " Inc.". |
| `MockData.SearchFallback` | src/api/stockApi.js:762-778 | The search fallback is exactly one match, with symbol upper-cased and name keywords + " Inc". |
| `MockData.TickerList` | src/api/stockApi.js:488-489 | The ticker filter has one entry per comma-separated part. |
| `MockData.MockNewsData` | src/api/stockApi.js:485-510 | The feed is an order-preserving subsequence of the fixed articles. It keeps exactly the articles that match the ticker and topic filters. `items` is the decimal length of the feed. |
| `MockData.CompactStamp` | src/api/stockApi.js:359-367 | For a four-digit year and two-digit fields, the stamp is 13 characters with 'T' at index 8 and no ':'. |
| `MockData.NewsJson` | src/api/stockApi.js:504-509 | The JSON news payload has the given `items` text and one feed entry per article. |
| `Watchlists.SaveWatchlists` | src/context/WatchlistContext.js:37-45 | A successful write replaces both the stored and the in-memory list. A failed write changes neither and is reported. |
| `Watchlists.LoadWatchlists` | src/context/WatchlistContext.js:23-35 | A parsed list replaces the in-memory list. A missing or unreadable one changes nothing. |
| `Watchlists.LoadKeepsConsistency` | src/context/WatchlistContext.js:23-35 | Loading a list whose watchlists hold unique tickers keeps the state consistent. |
| `Watchlists.CreateWatchlist` | src/context/WatchlistContext.js:47-62 | Succeeds exactly when the write succeeds. On success the new, empty watchlist is appended and returned, and storage holds the same list as memory. On failure nothing changes. |
| `Watchlists.Deleted` | src/context/WatchlistContext.js:64-72 | No watchlist with the id remains. Every other one is kept, in order, as many times as it occurred. |
| `Watchlists.DeleteWatchlist` | src/context/WatchlistContext.js:64-72 | Succeeds exactly when the write succeeds. On success memory and storage both hold `Deleted(lists, id)`. On failure nothing changes. |
| `Watchlists.DeleteUndoesCreate` | src/context/WatchlistContext.js:47-72 | Deleting a just-created watchlist whose id was new restores the list. |
| `Watchlists.StockAdded` | src/context/WatchlistContext.js:74-93 | Only watchlists with the id change. Each of them then holds the ticker. The stock is appended only when the ticker was absent. Ids, names and dates are kept. |
| `Watchlists.AddStockToWatchlist` | src/context/WatchlistContext.js:74-93 | Succeeds exactly when the write succeeds. On success memory and storage both hold `StockAdded`. On failure nothing changes. |
| `Watchlists.AddKeepsTickersUnique` | src/context/WatchlistContext.js:74-93 | Adding never puts a ticker twice into a watchlist. |
| `Watchlists.AddedIsFound` | src/context/WatchlistContext.js:74-117 | After adding to an existing watchlist, `isStockInWatchlist` holds for the ticker. |
| `Watchlists.UnknownIdChangesNothing` | src/context/WatchlistContext.js:74-111 | Adding to or removing from an id no watchlist has leaves the list unchanged. |
| `Watchlists.StockRemoved` | src/context/WatchlistContext.js:95-111 | A watchlist with the id no longer holds the ticker. It keeps every other stock, in order, as many times as it occurred. Other watchlists are unchanged. |
| `Watchlists.RemoveStockFromWatchlist` | src/context/WatchlistContext.js:95-111 | Succeeds exactly when the write succeeds. On success memory and storage both hold `StockRemoved`. On failure nothing changes. |
| `Watchlists.RemoveKeepsTickersUnique` | src/context/WatchlistContext.js:95-111 | Removing keeps tickers unique. |
| `Watchlists.RemoveUndoesAdd` | src/context/WatchlistContext.js:74-111 | Removing a stock just added to watchlists that lacked it restores the list. |
| `Watchlists.WatchlistsForStock` | src/context/WatchlistContext.js:119-123 | Returns the watchlists holding the ticker, in order, all of them, each as many times as it occurred. |
| `Watchlists.IsStockInWatchlist` | src/context/WatchlistContext.js:113-123 | `isStockInWatchlist` holds exactly when `getWatchlistsForStock` is non-empty. |
| `Watchlists.OperationsKeepConsistency` | src/context/WatchlistContext.js:37-111 | Create, delete, add and remove keep the in-memory list equal to the stored one and tickers unique, whether the write succeeds or fails. |
| `ViewAll.Filtered` | src/screens/ViewAllScreen.js:22-28 | A blank query keeps every stock. Otherwise the result is the ordered subsequence of stocks whose lower-cased ticker contains the lower-cased query. Each kept stock occurs as many times as in the input. |
| `ViewAll.UntrimmedQueryMatchesNothing` | src/screens/ViewAllScreen.js:24-28 | The query is matched untrimmed. A query holding a space leaves no ticker without a space. |
| `ViewAll.TickerOrderIsTotalPreorder` | src/screens/ViewAllScreen.js:32-33 | The alphabetical comparator is total and transitive. |
| `ViewAll.Descending` | src/screens/ViewAllScreen.js:35-43 | The price and change comparators order larger keys first and are total and transitive. |
| `ViewAll.ChangeText` | src/screens/ViewAllScreen.js:40-41 | A missing change reads "0". A non-empty change without '%' is used as is. The result is never empty. |
| `ViewAll.ChangeTextStripsPercent` | src/screens/ViewAllScreen.js:40 | A rendered percentage `t%` is parsed as `t`. |
| `ViewAll.FilteredAndSorted` | src/screens/ViewAllScreen.js:21-50 | The list is a permutation of the filtered stocks. It is ordered by ticker, by descending price or by descending change for the three sort keys, and left in filtered order for any other. |
| `ViewAll.ListedIffSelected` | src/screens/ViewAllScreen.js:21-50 | A stock is listed exactly when it was passed in and survives the search box. |
| `ViewAll.AlphabeticalIsCanonical` | src/screens/ViewAllScreen.js:30-33 | With distinct tickers, the alphabetical list does not depend on the input order. |
| `NewsCard.SentimentColor` | src/components/NewsCard.js:9-13 | Bullish is positive, Bearish is negative and every other or missing label is neutral. |
| `NewsCard.SentimentIcon` | src/components/NewsCard.js:15-19 | trending-up exactly for Bullish, trending-down exactly for Bearish, otherwise remove. |
| `NewsCard.IconMatchesColor` | src/components/NewsCard.js:9-19 | With distinct colours, icon and colour always agree. |
| `NewsCard.SentimentText` | src/components/NewsCard.js:112 | The badge text is never blank. It is the label as given, or "Neutral" when the label is missing or empty. |
| `NewsCard.OrDefault` | src/components/NewsCard.js:101 | `value || fallback` on an optional string, as the source line uses it with "Market News": a present, non-empty value is shown as given, and a missing or empty one shows the fallback. |
| `NewsCard.UnlabelledIsNeutral` | src/components/NewsCard.js:104-112 | An unlabelled article reads "Neutral" with the neutral icon and colour. |
| `NewsCard.DateText` | src/components/NewsCard.js:27-43 | A 13-character stamp containing 'T' and no ':' is spelled out as `YYYY-MM-DDTHH:MM:00Z` from its fields. Any other text is parsed as is. |
| `NewsCard.CompactStampRoundTrip` | src/components/NewsCard.js:29-35 | Spelling out a synthetic article's compact stamp gives the ISO text of the same date fields, ending in `Z`. This equates texts only (see "Left out"). |
| `NewsCard.AgeOf` | src/components/NewsCard.js:50-61 | Buckets by elapsed time: under a minute, minutes, hours, days, 1-4 weeks, then the locale date. Each count is the floor of the elapsed time in its unit and lies within that unit's range. |
| `NewsCard.AgeOfStamp` | src/components/NewsCard.js:21-48 | A missing or unparsable stamp gives "Recently". Otherwise the bucket is that of now minus the parsed time. |
| `NewsCard.AgeText` | src/components/NewsCard.js:55-61 | "Just now" under a minute. Each relative bucket prints its count in decimal digits, then its unit letter (m, h, d or w) and " ago", so the count reads back. Older articles print the locale date. |
| `NewsCard.RelativeTextsDistinct` | src/components/NewsCard.js:56-59 | Two different relative buckets never print the same words. |
| `NewsCard.FormatTimeAgo` | src/components/NewsCard.js:21-66 | A missing stamp reads "Recently". |
| `NewsCard.HoursAgoText` | src/components/NewsCard.js:50-57 | An article published h whole hours ago, with 1 <= h < 24, reads "<h>h ago". |
| `NewsCard.TickerChips` | src/components/NewsCard.js:129-152 | No chips without tickers. Otherwise the first min(3, n) tickers are shown in order, with a "+" count exactly when there are more than three. |
| `NewsCard.ChipsAccountForAll` | src/components/NewsCard.js:146-150 | The chips shown plus the "+N" count add up to the number of tickers. |

## Left out

- Network: URL building, `fetch` and `response.json()` are replaced by the `Reply` each call receives. Logging is dropped.
- `src/constants` is not part of this model. The TTL is a parameter, and the storage and endpoint names are implicit.
- Concurrency: overlapping async calls and their interleavings are not modelled. Each wrapper call reads and writes the cache under one clock value.
- Storage fidelity: `JSON.stringify`/`JSON.parse` round trips are assumed exact. A stored value that parses to a non-object is folded into the unreadable slot.
- `getMockTimeSeriesData` uses `Math.random` and the clock. Its payload is the caller-supplied `Ambient.randomSeries`. The current ISO time and the compact stamps of the synthetic news are also supplied through `Ambient`.
- `formatCurrency`, `formatVolume` and `formatMarketCap` are not modelled. They are floating-point and `Intl` formatting outside the cache and API logic.
- Cache.FormatPercentage: the numeric branch `parseFloat(value).toFixed(2)` is floating point, so its digits are supplied by the caller.
- MockData.TickerList: the contract states only the number of entries. That each entry is the trimmed, upper-cased part is its definition.
- String case mapping and trimming cover ASCII letters and the JavaScript whitespace set. Full Unicode case mapping is not modelled.
- Strings are sequences of Unicode scalar values, while JavaScript's `length`, indices and `substring` count UTF-16 code units. Lengths and positions therefore differ from JavaScript for characters outside the Basic Multilingual Plane. This affects `DateText`'s 13-character test and its substring offsets, and the positions `Trim` and `Split` work on. For text inside that plane the two agree.
- StockApi.ErrorText: the TypeError thrown when the body is JSON `null` carries a message the engine supplies, and the model does not carry it. The parse error of a non-JSON body is likewise given a fixed placeholder text instead of the engine's.
- ViewAll.FilteredAndSorted: `localeCompare` is approximated by Unicode code-point order, character by character. `parseFloat` is a caller-supplied total function to reals, so NaN is not modelled. That the sort is stable is not stated.
- NewsCard.FormatTimeAgo: its contract covers only the missing stamp. The buckets are stated by `AgeOf` and `AgeOfStamp`. Date parsing, the current time and `toLocaleDateString` are parameters.
- NewsCard.CompactStampRoundTrip: it equates texts only. `getMockNewsData` builds the stamp from local-time fields (src/api/stockApi.js:359-367), and the card appends `Z`, which reads them as UTC. Away from UTC the instant the card parses is therefore off by the device's offset. Time zones are not modelled.
- StockApi.Payload: its facts are stated per fallback by `SnapshotFallbackStamped`, `OverviewFallbackEchoes`, `SeriesFallbackIsRandom` and `SearchFallbackEchoes`, and the news payload by `MockData.NewsJson`. A contract on `Payload` itself would make the solver load every synthetic payload at once.
- Watchlist ids and creation times come from `Date` and are parameters. Only the ticker of a stock is interpreted.
- React rendering, navigation, theme switching and `useWatchlist`'s provider check are not modelled.

=== FILE: cache.dfy ===
/**
 * The expiring key-value cache of `src/utils/cache.js`, over an explicit
 * storage map. The clock `now`, the time-to-live `ttl` and the storage
 * faults are parameters: the source reads them from `Date`,
 * `CACHE_CONFIG.EXPIRATION_TIME` and AsyncStorage respectively.
 */
module Cache {
  import opened Strings
  import opened Json
  import opened Theme

  /** What AsyncStorage holds under a key, as `getCachedData` sees it after reading and parsing. */
  datatype Stored =
      /** The empty string: the `if (cached)` test fails. */
    | Blank
      /** Text `JSON.parse` rejects, or that parses to `null`: reading it throws. */
    | Garbled
      /** A parsed `{data, timestamp}` object; a missing timestamp is written 0. */
    | Record(data: Json, timestamp: int)

  type Store = map<string, Stored>

  /** Which storage calls succeed: `getItem`/`getAllKeys`, `removeItem`/`multiRemove`, `setItem`. */
  datatype Io = Io(getOk: bool, removeOk: bool, setOk: bool)

  const Healthy := Io(true, true, true)

  /** The storage after a read, and the value the read returned (JNull for `null`). */
  datatype Read = Read(store: Store, value: Json)

  /** A record whose timestamp is set (truthy) and older than `ttl` at `now`; the comparison is strict. */
  predicate Expired(e: Stored, now: int, ttl: int)
  {
    e.Record? && e.timestamp != 0 && now - e.timestamp > ttl
  }

  /** `key` holds a record that a read at `now` serves. */
  predicate Fresh(store: Store, key: string, now: int, ttl: int)
  {
    key in store && store[key].Record? && !Expired(store[key], now, ttl)
  }

  /** `getCachedData`: serve a live record, evict a stale one, and fail open on every error. */
  function GetCachedData(store: Store, key: string, now: int, ttl: int, io: Io): (r: Read)
    ensures r.store == store || (key in store && Expired(store[key], now, ttl) && r.store == store - {key})
    ensures r.value != JNull ==> io.getOk && Fresh(store, key, now, ttl) && r.value == store[key].data
    ensures io.getOk && Fresh(store, key, now, ttl) ==> r == Read(store, store[key].data)
    ensures key in store && Expired(store[key], now, ttl) ==>
              r.value == JNull && (key !in r.store <==> io.getOk && io.removeOk)
  {
    if !io.getOk || key !in store then Read(store, JNull)
    else
      match store[key]
      case Blank => Read(store, JNull)
      case Garbled => Read(store, JNull)
      case Record(data, ts) =>
        if ts != 0 && now - ts > ttl then
          // a failing removeItem lands in the catch block: null, storage untouched
          if io.removeOk then Read(store - {key}, JNull) else Read(store, JNull)
        else Read(store, data)
  }

  /** `setCachedData`: overwrite `key` with the data stamped `now`; a storage failure is swallowed. */
  function SetCachedData(store: Store, key: string, data: Json, now: int, io: Io): (r: Store)
    ensures forall k :: k != key ==> (k in r <==> k in store)
    ensures forall k :: k != key && k in r ==> r[k] == store[k]
    ensures io.setOk ==> key in r && r[key] == Record(data, now)
    ensures !io.setOk ==> r == store
  {
    if io.setOk then store[key := Record(data, now)] else store
  }

  /** Written at `t0`, read at `t1` no more than `ttl` later: the read returns the data and evicts nothing. */
  lemma SetThenGetFresh(store: Store, key: string, data: Json, t0: int, t1: int, ttl: int, io: Io)
    requires io.setOk && io.getOk
    requires t1 - t0 <= ttl
    ensures GetCachedData(SetCachedData(store, key, data, t0, io), key, t1, ttl, io)
            == Read(SetCachedData(store, key, data, t0, io), data)
  {
  }

  /** Written at a non-zero `t0`, read more than `ttl` later: the read returns null and removes the key. */
  lemma SetThenGetExpired(store: Store, key: string, data: Json, t0: int, t1: int, ttl: int, io: Io)
    requires io.setOk && io.getOk && io.removeOk
    requires t0 != 0 && t1 - t0 > ttl
    ensures var r := GetCachedData(SetCachedData(store, key, data, t0, io), key, t1, ttl, io);
            r.value == JNull && key !in r.store
  {
  }

  /** A record without a (truthy) timestamp never expires. */
  lemma UntimedNeverExpires(store: Store, key: string, data: Json, now: int, ttl: int)
    requires key in store && store[key] == Record(data, 0)
    ensures GetCachedData(store, key, now, ttl, Healthy) == Read(store, data)
  {
  }

  /** The key prefixes `clearCache` invalidates. */
  const CachePrefixes: seq<string> := ["topGainersLosers", "companyOverview_", "timeSeries_", "search_"]

  predicate IsCacheKey(k: string)
  {
    exists i :: 0 <= i < |CachePrefixes| && StartsWith(k, CachePrefixes[i])
  }

  /** `clearCache`: remove every key under one of the cache prefixes; a storage failure removes nothing. */
  function ClearCache(store: Store, io: Io): (r: Store)
    ensures forall k :: k in r ==> k in store && r[k] == store[k]
    ensures io.getOk && io.removeOk ==> forall k :: k in r <==> k in store && !IsCacheKey(k)
    ensures !(io.getOk && io.removeOk) ==> r == store
  {
    if io.getOk && io.removeOk then map k | k in store && !IsCacheKey(k) :: store[k] else store
  }

  /** Clearing twice removes nothing more than clearing once. */
  lemma ClearCacheIdempotent(store: Store, io: Io)
    ensures ClearCache(ClearCache(store, io), io) == ClearCache(store, io)
  {
  }

  // ---- Change and percentage helpers ----

  /** `isPositiveChange`: a truthy value whose text does not start with '-'. */
  function IsPositiveChange(v: Json): (r: bool)
    ensures !Truthy(v) ==> !r
    ensures Truthy(v) ==> (r <==> |ToText(v)| == 0 || ToText(v)[0] != '-')
  {
    Truthy(v) && !StartsWith(ToText(v), "-")
  }

  /** On a string: non-empty and not starting with '-'. */
  lemma PositiveChangeOfString(s: string)
    ensures IsPositiveChange(JStr(s)) <==> |s| > 0 && s[0] != '-'
  {
    if |s| > 0 {
      assert StartsWith(s, "-") <==> s[0] == '-';
    }
  }

  /** On an integer: exactly the positive ones (zero is falsy). */
  lemma PositiveChangeOfInt(n: int)
    ensures IsPositiveChange(Num(n)) <==> n > 0
  {
    TextOfScalars("", n);
    var r := IntToString(n);
    assert StartsWith(r, "-") <==> r[0] == '-';
  }

  /** `getChangeColor`: the positive colour exactly when the change is positive. */
  function ChangeColor(v: Json, theme: Palette): (c: string)
    ensures c == theme.positive || c == theme.negative
    ensures theme.positive != theme.negative ==> (c == theme.positive <==> IsPositiveChange(v))
  {
    if IsPositiveChange(v) then theme.positive else theme.negative
  }

  /**
   * `formatPercentage`. The numeric branch (`parseFloat(value).toFixed(2)`)
   * is floating point; its text is supplied by the caller as `fixed`.
   */
  function FormatPercentage(v: Json, fixed: string): (r: string)
    ensures '%' in r
    ensures !Truthy(v) ==> r == "0.00%"
    ensures Truthy(v) && '%' in ToText(v) ==> r == ToText(v)
  {
    if !Truthy(v) then "0.00%"
    else if '%' in ToText(v) then ToText(v)
    else fixed + "%"
  }

  /** Formatting an already formatted percentage changes nothing. */
  lemma FormatPercentageIdempotent(v: Json, fixed: string, fixed': string)
    ensures FormatPercentage(JStr(FormatPercentage(v, fixed)), fixed') == FormatPercentage(v, fixed)
  {
  }
}

=== FILE: json.dfy ===
/** JSON-like payloads as the app holds them after `JSON.parse` or `response.json()`. */
module Json {
  import opened Strings

  /**
   * A JavaScript value built from JSON. A number is held as the text
   * `String(n)` prints for it ("150", "0.75", "-4.38"), which is all the
   * core ever looks at: its truthiness and its leading sign.
   */
  datatype Json =
    | JNull
    | JBool(b: bool)
    | JNum(repr: string)
    | JStr(s: string)
    | JArr(items: seq<Json>)
    | JObj(fields: map<string, Json>)

  /** An integer-valued number. */
  function Num(n: int): Json
  {
    JNum(IntToString(n))
  }

  /** JavaScript truthiness: null, false, 0, NaN and "" are falsy; arrays and objects are truthy. */
  predicate Truthy(j: Json)
  {
    match j
    case JNull => false
    case JBool(b) => b
    case JNum(r) => r != "0" && r != "NaN"
    case JStr(s) => s != ""
    case JArr(_) => true
    case JObj(_) => true
  }

  /** Property read `j[name]`; a missing property, or one read off a non-object, is undefined (JNull). */
  function Member(j: Json, name: string): (r: Json)
    ensures r != JNull ==> j.JObj? && name in j.fields && j.fields[name] == r
  {
    match j
    case JObj(f) => if name in f then f[name] else JNull
    case _ => JNull
  }

  /** `String(j)`, the text template literals and `toString()` produce. */
  function ToText(j: Json): string
    decreases j, 1
  {
    match j
    case JNull => "null"
    case JBool(b) => if b then "true" else "false"
    case JNum(r) => r
    case JStr(s) => s
    case JArr(items) => ItemsText(items)
    case JObj(_) => "[object Object]"
  }

  /** Array.prototype.toString: elements joined by commas, null elements printed empty. */
  function ItemsText(items: seq<Json>): string
    decreases items, 0
  {
    if |items| == 0 then ""
    else
      var first := if items[0] == JNull then "" else ToText(items[0]);
      if |items| == 1 then first else first + "," + ItemsText(items[1..])
  }

  /** A string's text is itself, and an integer's text is its numeral. */
  lemma TextOfScalars(s: string, n: int)
    ensures ToText(JStr(s)) == s
    ensures ToText(Num(n)) == IntToString(n)
    ensures Truthy(Num(n)) <==> n != 0
  {
    var r := IntToString(n);
    assert r[0] == '-' || IsDigit(r[0]);
  }
}

=== FILE: mock_data.dfy ===
/**
 * The deterministic fallback payloads of `src/api/stockApi.js`: the mock
 * market snapshot, the mock company profile, the curated news set with its
 * ticker/topic filter, and the single-match symbol search.
 */
module MockData {
  import opened Wrappers
  import opened Strings
  import opened Seqs
  import opened Json

  // ---- Top gainers and losers ----

  datatype Quote = Quote(ticker: string, price: string, changeAmount: string, changePercentage: string, volume: string)

  const MockGainers: seq<Quote> := [
    Quote("AAPL", "150.25", "5.75", "3.98%", "75000000"),
    Quote("GOOGL", "2750.80", "125.30", "4.77%", "25000000"),
    Quote("MSFT", "320.45", "12.85", "4.18%", "45000000"),
    Quote("TSLA", "850.20", "35.60", "4.37%", "55000000"),
    Quote("AMZN", "3200.75", "145.25", "4.75%", "18000000"),
    Quote("NVDA", "220.85", "8.95", "4.23%", "62000000")
  ]

  const MockLosers: seq<Quote> := [
    Quote("META", "180.45", "-8.25", "-4.38%", "42000000"),
    Quote("NFLX", "385.20", "-16.80", "-4.18%", "28000000"),
    Quote("DIS", "95.75", "-4.15", "-4.15%", "35000000"),
    Quote("UBER", "45.20", "-1.95", "-4.13%", "48000000"),
    Quote("SNAP", "12.85", "-0.58", "-4.32%", "68000000"),
    Quote("TWTR", "38.45", "-1.75", "-4.36%", "52000000")
  ]

  function QuoteJson(q: Quote): Json
  {
    JObj(map[
      "ticker" := JStr(q.ticker),
      "price" := JStr(q.price),
      "change_amount" := JStr(q.changeAmount),
      "change_percentage" := JStr(q.changePercentage),
      "volume" := JStr(q.volume)])
  }

  function QuotesJson(qs: seq<Quote>): (r: Json)
    ensures r.JArr? && |r.items| == |qs|
    ensures forall i :: 0 <= i < |qs| ==> r.items[i] == QuoteJson(qs[i])
  {
    JArr(seq(|qs|, i requires 0 <= i < |qs| => QuoteJson(qs[i])))
  }

  /** `getMockTopGainersLosers`; `isoNow` is `new Date().toISOString()`. */
  function MockTopGainersLosers(isoNow: string): (r: Json)
    ensures Member(r, "last_updated") == JStr(isoNow)
    ensures Member(r, "top_gainers") == QuotesJson(MockGainers)
    ensures Member(r, "top_losers") == QuotesJson(MockLosers)
  {
    JObj(map[
      "metadata" := JStr("Top gainers/losers for the US market"),
      "last_updated" := JStr(isoNow),
      "top_gainers" := QuotesJson(MockGainers),
      "top_losers" := QuotesJson(MockLosers)])
  }

  /** Every mock gainer has a non-negative change and every mock loser a negative one. */
  lemma MockSnapshotSigns()
    ensures forall i :: 0 <= i < |MockGainers| ==> MockGainers[i].changePercentage[0] != '-'
    ensures forall i :: 0 <= i < |MockLosers| ==> MockLosers[i].changePercentage[0] == '-'
  {
  }

  // ---- Company overview ----

  /** The profile fields that do not depend on the symbol. */
  const OverviewConstants: map<string, Json> := map[
    "AssetType" := JStr("Common Stock"),
    "Exchange" := JStr("NASDAQ"),
    "Currency" := JStr("USD"),
    "Country" := JStr("USA"),
    "Sector" := JStr("Technology"),
    "Industry" := JStr("Consumer Electronics"),
    "MarketCapitalization" := JStr("2500000000000"),
    "PERatio" := JStr("28.5"),
    "PEGRatio" := JStr("1.2"),
    "BookValue" := JStr("4.5"),
    "DividendPerShare" := JStr("0.88"),
    "DividendYield" := JStr("0.58"),
    "EPS" := JStr("5.25"),
    "RevenuePerShareTTM" := JStr("22.5"),
    "ProfitMargin" := JStr("0.23"),
    "OperatingMarginTTM" := JStr("0.28"),
    "ReturnOnAssetsTTM" := JStr("0.12"),
    "ReturnOnEquityTTM" := JStr("0.85"),
    "RevenueTTM" := JStr("365000000000"),
    "GrossProfitTTM" := JStr("170000000000"),
    "DilutedEPSTTM" := JStr("5.25"),
    "QuarterlyEarningsGrowthYOY" := JStr("0.15"),
    "QuarterlyRevenueGrowthYOY" := JStr("0.12"),
    "AnalystTargetPrice" := JStr("160.0"),
    "TrailingPE" := JStr("28.5"),
    "ForwardPE" := JStr("25.2"),
    "PriceToSalesRatioTTM" := JStr("7.2"),
    "PriceToBookRatio" := JStr("33.5"),
    "EVToRevenue" := JStr("7.8"),
    "EVToEBITDA" := JStr("21.5"),
    "Beta" := JStr("1.2"),
    "52WeekHigh" := JStr("175.5"),
    "52WeekLow" := JStr("125.2"),
    "50DayMovingAverage" := JStr("148.5"),
    "200DayMovingAverage" := JStr("142.8"),
    "SharesOutstanding" := JStr("16000000000"),
    "SharesFloat" := JStr("15800000000"),
    "SharesShort" := JStr("120000000"),
    "SharesShortPriorMonth" := JStr("110000000"),
    "ShortRatio" := JStr("1.8"),
    "ShortPercentOutstanding" := JStr("0.0075"),
    "ShortPercentFloat" := JStr("0.0076"),
    "PercentInsiders" := JStr("0.15"),
    "PercentInstitutions" := JStr("58.5"),
    "ForwardAnnualDividendRate" := JStr("0.92"),
    "ForwardAnnualDividendYield" := JStr("0.0061"),
    "PayoutRatio" := JStr("0.175"),
    "DividendDate" := JStr("2024-02-15"),
    "ExDividendDate" := JStr("2024-02-08"),
    "LastSplitFactor" := JStr("4:1"),
    "LastSplitDate" := JStr("2020-08-31")]

  /** `getMockCompanyOverview`: a synthetic profile that echoes the requested symbol. */
  function MockCompanyOverview(symbol: string): (r: Json)
    ensures Member(r, "Symbol") == JStr(symbol)
    ensures Member(r, "Name") == JStr(symbol + " Inc.")
  {
    var description := symbol + " is a leading technology company that designs, develops, and sells consumer electronics, computer software, and online services.";
    var fields := OverviewConstants["Description" := JStr(description)]["Name" := JStr(symbol + " Inc.")]["Symbol" := JStr(symbol)];
    assert "Name" != "Symbol";
    JObj(fields)
  }

  // ---- Symbol search ----

  /** The `searchSymbol` fallback: a single match whose symbol is the upper-cased query. */
  function SearchFallback(keywords: string): (r: Json)
    ensures Member(r, "bestMatches").JArr?
    ensures |Member(r, "bestMatches").items| == 1
    ensures Member(Member(r, "bestMatches").items[0], "1. symbol") == JStr(Upper(keywords))
    ensures Member(Member(r, "bestMatches").items[0], "2. name") == JStr(keywords + " Inc")
  {
    JObj(map["bestMatches" := JArr([JObj(map[
      "1. symbol" := JStr(Upper(keywords)),
      "2. name" := JStr(keywords + " Inc"),
      "3. type" := JStr("Equity"),
      "4. region" := JStr("United States"),
      "5. marketOpen" := JStr("09:30"),
      "6. marketClose" := JStr("16:00"),
      "7. timezone" := JStr("UTC-04"),
      "8. currency" := JStr("USD"),
      "9. matchScore" := JStr("0.8000")])])])
  }

  // ---- News ----

  datatype TickerSentiment = TickerSentiment(ticker: string, relevance: string, score: string, sentiment: string)

  /**
   * A mock article. `hoursAgo` is the age its `time_published` stamp is
   * computed from; `score` is the text of `overall_sentiment_score`.
   */
  datatype Article = Article(
    title: string, url: string, hoursAgo: nat, source: string,
    sentiment: string, score: string, summary: string, banner: string,
    tickerSentiment: seq<TickerSentiment>, topics: seq<string>)

  const MockArticles: seq<Article> := [
    Article("Apple Reports Strong Q4 Earnings, iPhone Sales Surge",
      "https://example.com/apple-earnings", 2, "Financial News Network", "Bullish", "0.75",
      "Apple Inc. exceeded analyst expectations with strong iPhone sales and robust services revenue, driving optimism for the holiday quarter.",
      "https://via.placeholder.com/600x300/007AFF/FFFFFF?text=AAPL+News",
      [TickerSentiment("AAPL", "0.95", "0.8", "Bullish")],
      ["earnings", "technology"]),
    Article("Tesla Unveils New Charging Network Expansion Plans",
      "https://example.com/tesla-charging", 4, "Tech Daily", "Bullish", "0.65",
      "Tesla announces major expansion of Supercharger network, opening to all electric vehicles in move that could boost revenue.",
      "https://via.placeholder.com/600x300/00C851/FFFFFF?text=TSLA+News",
      [TickerSentiment("TSLA", "0.92", "0.7", "Bullish")],
      ["technology", "energy_transportation"]),
    Article("Federal Reserve Signals Potential Rate Cuts Ahead",
      "https://example.com/fed-rates", 6, "Economic Times", "Bullish", "0.55",
      "Fed officials hint at possible interest rate reductions in upcoming meetings, boosting market sentiment across sectors.",
      "https://via.placeholder.com/600x300/5856D6/FFFFFF?text=Fed+News",
      [TickerSentiment("SPY", "0.85", "0.6", "Bullish"), TickerSentiment("QQQ", "0.80", "0.65", "Bullish")],
      ["financial_markets", "economy_monetary"]),
    Article("Microsoft Azure Cloud Revenue Beats Expectations",
      "https://example.com/microsoft-azure", 8, "Cloud Computing News", "Bullish", "0.72",
      "Microsoft's cloud division continues strong growth trajectory, with Azure services showing significant market share gains.",
      "https://via.placeholder.com/600x300/0078D4/FFFFFF?text=MSFT+News",
      [TickerSentiment("MSFT", "0.98", "0.75", "Bullish")],
      ["technology", "earnings"]),
    Article("Cryptocurrency Market Faces Regulatory Uncertainty",
      "https://example.com/crypto-regulation", 12, "Crypto Watch", "Bearish", "-0.45",
      "New regulatory proposals from government agencies create uncertainty in cryptocurrency markets, affecting related stocks.",
      "https://via.placeholder.com/600x300/FF3B30/FFFFFF?text=Crypto+News",
      [TickerSentiment("COIN", "0.90", "-0.5", "Bearish")],
      ["financial_markets", "blockchain"]),
    Article("AI Chip Demand Drives Semiconductor Sector Growth",
      "https://example.com/ai-chips", 16, "Semiconductor Weekly", "Bullish", "0.82",
      "Rising demand for AI processing chips continues to benefit major semiconductor companies as machine learning adoption accelerates.",
      "https://via.placeholder.com/600x300/76B900/FFFFFF?text=AI+Chips",
      [TickerSentiment("NVDA", "0.95", "0.85", "Bullish"), TickerSentiment("AMD", "0.88", "0.70", "Bullish")],
      ["technology", "manufacturing"]),
    Article("Bank Stocks Rally on Interest Rate Outlook",
      "https://example.com/bank-rally", 20, "Banking Weekly", "Bullish", "0.68",
      "Major bank stocks surge as investors anticipate favorable interest rate environment and strong lending growth ahead.",
      "https://via.placeholder.com/600x300/34C759/FFFFFF?text=Bank+News",
      [TickerSentiment("JPM", "0.90", "0.72", "Bullish"), TickerSentiment("BAC", "0.85", "0.68", "Bullish")],
      ["financial_markets", "finance"]),
    Article("Major IPO Filing Expected This Week",
      "https://example.com/ipo-filing", 24, "IPO News", "Neutral", "0.15",
      "Several companies are preparing for public offerings in what could be a busy week for initial public offerings.",
      "https://via.placeholder.com/600x300/FF9500/FFFFFF?text=IPO+News",
      [],
      ["ipo", "financial_markets"])
  ]

  /** The requested tickers: split on ',', each trimmed and upper-cased. */
  function TickerList(tickers: string): (r: seq<string>)
    ensures |r| == |Split(tickers, ',')|
  {
    var parts := Split(tickers, ',');
    seq(|parts|, i requires 0 <= i < |parts| => Upper(Trim(parts[i])))
  }

  /** Some ticker of the article, upper-cased, is in the list. */
  predicate MentionsAny(a: Article, list: seq<string>)
  {
    exists i :: 0 <= i < |a.tickerSentiment| && Upper(a.tickerSentiment[i].ticker) in list
  }

  /** The ticker filter passes: no tickers requested (null or ""), or the article mentions one. */
  predicate TickerMatch(tickers: Option<string>, a: Article)
  {
    tickers.None? || tickers.value == "" || MentionsAny(a, TickerList(tickers.value))
  }

  /** The topic filter passes: no topic requested (null, "" or "all"), or the article carries it. */
  predicate TopicMatch(topics: Option<string>, a: Article)
  {
    topics.None? || topics.value == "" || topics.value == "all" || topics.value in a.topics
  }

  /** The news fallback before serialisation: the `items` count and the kept articles. */
  datatype NewsFeed = NewsFeed(items: string, feed: seq<Article>)

  /** `getMockNewsData`: the curated articles, filtered by tickers, then by topic. */
  function MockNewsData(tickers: Option<string>, topics: Option<string>): (r: NewsFeed)
    ensures IsSubseq(r.feed, MockArticles)
    ensures forall i :: 0 <= i < |r.feed| ==> TickerMatch(tickers, r.feed[i]) && TopicMatch(topics, r.feed[i])
    ensures forall i :: 0 <= i < |MockArticles| && TickerMatch(tickers, MockArticles[i]) && TopicMatch(topics, MockArticles[i])
              ==> MockArticles[i] in r.feed
    ensures r.items == NatToString(|r.feed|)
  {
    FilterNews(MockArticles, tickers, topics)
  }

  /** The ticker filter of `getMockNewsData`, applied only when tickers is truthy. */
  function ByTicker(articles: seq<Article>, tickers: Option<string>): (r: seq<Article>)
    ensures IsSubseq(r, articles)
    ensures forall i :: 0 <= i < |r| ==> r[i] in articles && TickerMatch(tickers, r[i])
    ensures forall i :: 0 <= i < |articles| && TickerMatch(tickers, articles[i]) ==> articles[i] in r
  {
    if tickers.Some? && tickers.value != "" then Filter(articles, a => TickerMatch(tickers, a))
    else (SubseqRefl(articles); articles)
  }

  /** The topic filter of `getMockNewsData`, applied unless topics is falsy or "all". */
  function ByTopic(articles: seq<Article>, topics: Option<string>): (r: seq<Article>)
    ensures IsSubseq(r, articles)
    ensures forall i :: 0 <= i < |r| ==> r[i] in articles && TopicMatch(topics, r[i])
    ensures forall i :: 0 <= i < |articles| && TopicMatch(topics, articles[i]) ==> articles[i] in r
  {
    if topics.Some? && topics.value != "" && topics.value != "all" then Filter(articles, a => TopicMatch(topics, a))
    else (SubseqRefl(articles); articles)
  }

  /** The two filters of `getMockNewsData`, over any article list. */
  function FilterNews(articles: seq<Article>, tickers: Option<string>, topics: Option<string>): (r: NewsFeed)
    ensures IsSubseq(r.feed, articles)
    ensures forall i :: 0 <= i < |r.feed| ==> TickerMatch(tickers, r.feed[i]) && TopicMatch(topics, r.feed[i])
    ensures forall i :: 0 <= i < |articles| && TickerMatch(tickers, articles[i]) && TopicMatch(topics, articles[i])
              ==> articles[i] in r.feed
    ensures r.items == NatToString(|r.feed|)
  {
    var byTicker := ByTicker(articles, tickers);
    var byTopic := ByTopic(byTicker, topics);
    assert IsSubseq(byTopic, articles) by {
      SubseqTransitive(byTopic, byTicker, articles);
    }
    assert forall i :: 0 <= i < |byTopic| ==> TickerMatch(tickers, byTopic[i]) by {
      forall i | 0 <= i < |byTopic| ensures TickerMatch(tickers, byTopic[i]) {
        var j :| 0 <= j < |byTicker| && byTicker[j] == byTopic[i];
      }
    }
    assert forall i :: 0 <= i < |articles| && TickerMatch(tickers, articles[i]) && TopicMatch(topics, articles[i])
              ==> articles[i] in byTopic by {
      forall i | 0 <= i < |articles| && TickerMatch(tickers, articles[i]) && TopicMatch(topics, articles[i])
        ensures articles[i] in byTopic
      {
        var j :| 0 <= j < |byTicker| && byTicker[j] == articles[i];
      }
    }
    NewsFeed(NatToString(|byTopic|), byTopic)
  }

  /** A subsequence of a subsequence is a subsequence. */
  lemma {:induction false} SubseqTransitive<T>(a: seq<T>, b: seq<T>, c: seq<T>)
    requires IsSubseq(a, b) && IsSubseq(b, c)
    ensures IsSubseq(a, c)
    decreases |c|
  {
    if |a| > 0 {
      assert |b| > 0 && |c| > 0;
      if b[0] == c[0] && IsSubseq(b[1..], c[1..]) {
        if a[0] == b[0] && IsSubseq(a[1..], b[1..]) {
          SubseqTransitive(a[1..], b[1..], c[1..]);
        } else {
          SubseqTransitive(a, b[1..], c[1..]);
        }
      } else {
        SubseqTransitive(a, b, c[1..]);
      }
    }
  }

  /** Local date fields of a timestamp, as the mock's date formatter reads them from `Date`. */
  datatype DateParts = DateParts(year: nat, month: nat, day: nat, hour: nat, minute: nat)

  /** `String(n).padStart(2, '0')`. */
  function Pad2(n: nat): (r: string)
    ensures n < 100 ==> |r| == 2 && IsDigit(r[0]) && IsDigit(r[1])
  {
    var s := NatToString(n);
    assert 10 <= n < 100 ==> s == NatToString(n / 10) + [DigitChar(n % 10)];
    if |s| < 2 then "0" + s else s
  }

  /** The mock's compact `YYYYMMDDTHHMM` publication stamp. */
  function CompactStamp(p: DateParts): (r: string)
    ensures 1000 <= p.year <= 9999 && p.month < 100 && p.day < 100 && p.hour < 100 && p.minute < 100 ==>
              |r| == 13 && r[8] == 'T' && ':' !in r
  {
    var r := NatToString(p.year) + Pad2(p.month) + Pad2(p.day) + "T" + Pad2(p.hour) + Pad2(p.minute);
    if 1000 <= p.year <= 9999 && p.month < 100 && p.day < 100 && p.hour < 100 && p.minute < 100 then
      assert |NatToString(p.year)| == 4 by { YearDigits(p.year); }
      assert forall i :: 0 <= i < |r| && i != 8 ==> IsDigit(r[i]);
      r
    else r
  }

  /** A four-digit year prints in four characters. */
  lemma YearDigits(y: nat)
    requires 1000 <= y <= 9999
    ensures |NatToString(y)| == 4
  {
    assert NatToString(y) == NatToString(y / 10) + [DigitChar(y % 10)];
    assert NatToString(y / 10) == NatToString(y / 100) + [DigitChar((y / 10) % 10)];
    assert NatToString(y / 100) == NatToString(y / 1000) + [DigitChar((y / 100) % 10)];
  }

  function TickerSentimentJson(t: TickerSentiment): Json
  {
    JObj(map[
      "ticker" := JStr(t.ticker),
      "relevance_score" := JStr(t.relevance),
      "ticker_sentiment_score" := JStr(t.score),
      "ticker_sentiment_label" := JStr(t.sentiment)])
  }

  /** An article as a payload; `stampOf(h)` gives the local date fields `h` hours before now. */
  function ArticleJson(a: Article, stampOf: nat -> DateParts): Json
  {
    var ts := a.tickerSentiment;
    JObj(map[
      "title" := JStr(a.title),
      "url" := JStr(a.url),
      "time_published" := JStr(CompactStamp(stampOf(a.hoursAgo))),
      "source" := JStr(a.source),
      "overall_sentiment_label" := JStr(a.sentiment),
      "overall_sentiment_score" := JNum(a.score),
      "summary" := JStr(a.summary),
      "banner_image" := JStr(a.banner),
      "ticker_sentiment" := JArr(seq(|ts|, i requires 0 <= i < |ts| => TickerSentimentJson(ts[i]))),
      "topics" := JArr(seq(|a.topics|, i requires 0 <= i < |a.topics| => JStr(a.topics[i])))])
  }

  /** The news fallback as the payload `getNewsSentiment` returns. */
  function NewsJson(n: NewsFeed, stampOf: nat -> DateParts): (r: Json)
    ensures Member(r, "items") == JStr(n.items)
    ensures Member(r, "feed").JArr? && |Member(r, "feed").items| == |n.feed|
  {
    JObj(map[
      "items" := JStr(n.items),
      "sentiment_score_definition" := JStr("x <= -0.35: Bearish; -0.35 < x <= 0.35: Neutral; 0.35 < x: Bullish"),
      "relevance_score_definition" := JStr("0 < x <= 1, with a higher score indicating higher relevance."),
      "feed" := JArr(seq(|n.feed|, i requires 0 <= i < |n.feed| => ArticleJson(n.feed[i], stampOf)))])
  }
}

=== FILE: news_card.dfy ===
/**
 * The display logic of `src/components/NewsCard.js`: the sentiment badge,
 * the relative publication time and the ticker chips. The current time, date
 * parsing and locale date formatting are parameters.
 */
module NewsCard {
  import opened Wrappers
  import opened Strings
  import opened Theme
  import opened MockData

  // ---- Sentiment badge ----

  /** The badge colour for `overall_sentiment_label`; a missing label is neutral. */
  function SentimentColor(sentiment: Option<string>, theme: Palette): (r: string)
    ensures r in {theme.positive, theme.negative, theme.neutral}
    ensures sentiment == Some("Bullish") ==> r == theme.positive
    ensures sentiment == Some("Bearish") ==> r == theme.negative
    ensures sentiment != Some("Bullish") && sentiment != Some("Bearish") ==> r == theme.neutral
  {
    if sentiment == Some("Bullish") then theme.positive
    else if sentiment == Some("Bearish") then theme.negative
    else theme.neutral
  }

  /** The badge icon for `overall_sentiment_label`. */
  function SentimentIcon(sentiment: Option<string>): (r: string)
    ensures r in {"trending-up", "trending-down", "remove"}
    ensures r == "trending-up" <==> sentiment == Some("Bullish")
    ensures r == "trending-down" <==> sentiment == Some("Bearish")
  {
    if sentiment == Some("Bullish") then "trending-up"
    else if sentiment == Some("Bearish") then "trending-down"
    else "remove"
  }

  /** Icon and colour always tell the same story when the palette's colours differ. */
  lemma IconMatchesColor(sentiment: Option<string>, theme: Palette)
    requires Distinct(theme)
    ensures SentimentIcon(sentiment) == "trending-up" <==> SentimentColor(sentiment, theme) == theme.positive
    ensures SentimentIcon(sentiment) == "trending-down" <==> SentimentColor(sentiment, theme) == theme.negative
    ensures SentimentIcon(sentiment) == "remove" <==> SentimentColor(sentiment, theme) == theme.neutral
  {
  }

  /**
   * `value || fallback` on an optional string: missing and empty both fall
   * back. src/components/NewsCard.js:101, `article.source || 'Market News'`,
   * is `OrDefault(source, "Market News")`.
   */
  function OrDefault(value: Option<string>, fallback: string): (r: string)
    ensures value.Some? && value.value != [] ==> r == value.value
    ensures value.None? || value.value == [] ==> r == fallback
  {
    if value.Some? && value.value != [] then value.value else fallback
  }

  /** The badge text: the label as given, or "Neutral" when it is missing or empty; never blank. */
  function SentimentText(sentiment: Option<string>): (r: string)
    ensures r != []
    ensures sentiment == Some(r) || (r == "Neutral" && (sentiment.None? || sentiment.value == []))
  {
    OrDefault(sentiment, "Neutral")
  }

  /** An unlabelled article reads Neutral and shows the neutral icon and colour. */
  lemma UnlabelledIsNeutral(sentiment: Option<string>, theme: Palette)
    requires sentiment.None? || sentiment.value == []
    ensures SentimentText(sentiment) == "Neutral"
    ensures SentimentIcon(sentiment) == "remove" && SentimentColor(sentiment, theme) == theme.neutral
  {
  }

  // ---- Relative time ----

  /** The text handed to the date parser: a compact `YYYYMMDDTHHMM` stamp is spelled out as ISO 8601. */
  function DateText(timeString: string): (r: string)
    ensures ('T' !in timeString || |timeString| != 13 || ':' in timeString) ==> r == timeString
    ensures 'T' in timeString && |timeString| == 13 && ':' !in timeString ==>
              |r| == 20 && r[4] == '-' && r[7] == '-' && r[10] == 'T' && r[13] == ':' && r[16..] == ":00Z" &&
              r[..4] == timeString[..4] && r[5..7] == timeString[4..6] && r[8..10] == timeString[6..8] &&
              r[11..13] == timeString[9..11] && r[14..16] == timeString[11..13]
  {
    if 'T' in timeString && |timeString| == 13 && ':' !in timeString then
      timeString[..4] + "-" + timeString[4..6] + "-" + timeString[6..8] + "T" +
      timeString[9..11] + ":" + timeString[11..13] + ":00Z"
    else timeString
  }

  /**
   * The ISO 8601 text of the date fields, read as UTC: the fields are taken
   * as they are and a `Z` is appended.
   */
  function IsoMinute(p: DateParts): string
  {
    NatToString(p.year) + "-" + Pad2(p.month) + "-" + Pad2(p.day) + "T" + Pad2(p.hour) + ":" + Pad2(p.minute) + ":00Z"
  }

  /**
   * The card spells a mock stamp out as the ISO text of the same date
   * fields. This equates texts only: the stamp's fields are local time, the
   * text ends in `Z`, so away from UTC the instant it names is shifted by the
   * device's offset.
   */
  lemma CompactStampRoundTrip(p: DateParts)
    requires 1000 <= p.year <= 9999 && p.month < 100 && p.day < 100 && p.hour < 100 && p.minute < 100
    ensures DateText(CompactStamp(p)) == IsoMinute(p)
  {
    var c := CompactStamp(p);
    YearDigits(p.year);
    var y, mo, d, h, mi := NatToString(p.year), Pad2(p.month), Pad2(p.day), Pad2(p.hour), Pad2(p.minute);
    assert c == y + mo + d + "T" + h + mi;
    assert c[8] == 'T';
    assert c[..4] == y && c[4..6] == mo && c[6..8] == d && c[9..11] == h && c[11..13] == mi;
  }

  /** How long ago an article appeared, as the card buckets it. */
  datatype Age = Recently | JustNow | MinutesAgo(n: int) | HoursAgo(n: int) | DaysAgo(n: int) | WeeksAgo(n: int) | OnDate(ms: int)

  const Minute := 60000
  const Hour := 60 * Minute
  const Day := 24 * Hour

  /** The bucket for `elapsed` milliseconds; floor division, as `Math.floor` on a positive divisor. */
  function AgeOf(elapsed: int, published: int): (r: Age)
    ensures r == JustNow <==> elapsed < Minute
    ensures r.MinutesAgo? <==> Minute <= elapsed < Hour
    ensures r.HoursAgo? <==> Hour <= elapsed < Day
    ensures r.DaysAgo? <==> Day <= elapsed < 7 * Day
    ensures r.WeeksAgo? <==> 7 * Day <= elapsed < 30 * Day
    ensures r.OnDate? <==> 30 * Day <= elapsed
    ensures r.MinutesAgo? ==> 1 <= r.n < 60 && r.n * Minute <= elapsed < (r.n + 1) * Minute
    ensures r.HoursAgo? ==> 1 <= r.n < 24 && r.n * Hour <= elapsed < (r.n + 1) * Hour
    ensures r.DaysAgo? ==> 1 <= r.n < 7 && r.n * Day <= elapsed < (r.n + 1) * Day
    ensures r.WeeksAgo? ==> 1 <= r.n <= 4 && r.n * 7 * Day <= elapsed < (r.n + 1) * 7 * Day
    ensures r.OnDate? ==> r.ms == published
  {
    var minutes := elapsed / Minute;
    var hours := elapsed / Hour;
    var days := elapsed / Day;
    if minutes < 1 then JustNow
    else if minutes < 60 then MinutesAgo(minutes)
    else if hours < 24 then HoursAgo(hours)
    else if days < 7 then DaysAgo(days)
    else if days < 30 then WeeksAgo(days / 7)
    else OnDate(published)
  }

  /** The bucket for a publication time; a missing or unparsable one is `Recently`. */
  function AgeOfStamp(timeString: Option<string>, now: int, parse: string -> Option<int>): (r: Age)
    ensures r == Recently <==> timeString.None? || parse(DateText(timeString.value)).None?
    ensures r != Recently ==> r == AgeOf(now - parse(DateText(timeString.value)).value, parse(DateText(timeString.value)).value)
  {
    if timeString.None? then Recently
    else
      match parse(DateText(timeString.value))
      case None => Recently
      case Some(t) => AgeOf(now - t, t)
  }

  /** `text` is the decimal digits of `n` followed by the one-letter unit and " ago". */
  predicate ReadsAgo(text: string, n: nat, unit: char)
  {
    && |text| > 5
    && text[|text| - 5..] == [unit] + " ago"
    && (forall i :: 0 <= i < |text| - 5 ==> IsDigit(text[i]))
    && ParseNat(text[..|text| - 5]) == n
  }

  /** The count and unit the card prints, as `${n}<unit> ago`. */
  function CountAgo(n: int, unit: char): (r: string)
    ensures n >= 0 ==> ReadsAgo(r, n, unit)
  {
    var digits := IntToString(n);
    var r := digits + [unit] + " ago";
    if n >= 0 then
      assert digits == NatToString(n);
      ParseNatToString(n);
      assert r[..|r| - 5] == digits;
      r
    else r
  }

  /** The words the card prints for a bucket: the count and unit of a relative bucket read back. */
  function AgeText(a: Age, localeDate: int -> string): (r: string)
    ensures a.Recently? ==> r == "Recently"
    ensures a.JustNow? ==> r == "Just now"
    ensures a.MinutesAgo? && a.n >= 0 ==> ReadsAgo(r, a.n, 'm')
    ensures a.HoursAgo? && a.n >= 0 ==> ReadsAgo(r, a.n, 'h')
    ensures a.DaysAgo? && a.n >= 0 ==> ReadsAgo(r, a.n, 'd')
    ensures a.WeeksAgo? && a.n >= 0 ==> ReadsAgo(r, a.n, 'w')
    ensures a.OnDate? ==> r == localeDate(a.ms)
  {
    match a
    case Recently => "Recently"
    case JustNow => "Just now"
    case MinutesAgo(n) => CountAgo(n, 'm')
    case HoursAgo(n) => CountAgo(n, 'h')
    case DaysAgo(n) => CountAgo(n, 'd')
    case WeeksAgo(n) => CountAgo(n, 'w')
    case OnDate(ms) => localeDate(ms)
  }

  /** Two relative buckets with non-negative counts print the same words only if they are the same bucket. */
  lemma RelativeTextsDistinct(a: Age, b: Age, localeDate: int -> string)
    requires (a.MinutesAgo? || a.HoursAgo? || a.DaysAgo? || a.WeeksAgo?) && a.n >= 0
    requires (b.MinutesAgo? || b.HoursAgo? || b.DaysAgo? || b.WeeksAgo?) && b.n >= 0
    requires AgeText(a, localeDate) == AgeText(b, localeDate)
    ensures a == b
  {
    var t := AgeText(a, localeDate);
    assert t[|t| - 5] == UnitOf(a) && t[|t| - 5] == UnitOf(b);
  }

  /** The unit letter of a relative bucket. */
  function UnitOf(a: Age): char
    requires a.MinutesAgo? || a.HoursAgo? || a.DaysAgo? || a.WeeksAgo?
  {
    match a
    case MinutesAgo(_) => 'm'
    case HoursAgo(_) => 'h'
    case DaysAgo(_) => 'd'
    case WeeksAgo(_) => 'w'
  }

  /** `formatTimeAgo`. */
  function FormatTimeAgo(timeString: Option<string>, now: int, parse: string -> Option<int>, localeDate: int -> string): (r: string)
    ensures timeString.None? ==> r == "Recently"
  {
    AgeText(AgeOfStamp(timeString, now, parse), localeDate)
  }

  /** An article published a whole number of hours ago, under a day, reads "<h>h ago". */
  lemma HoursAgoText(timeString: string, now: int, h: int, parse: string -> Option<int>, localeDate: int -> string)
    requires 1 <= h < 24
    requires parse(DateText(timeString)) == Some(now - h * Hour)
    ensures FormatTimeAgo(Some(timeString), now, parse, localeDate) == IntToString(h) + "h ago"
  {
    var e := h * Hour;
    assert e == (h * 60) * Minute + 0;
    assert e / Minute == h * 60;
    assert e / Hour == h;
    assert AgeOf(e, now - e) == HoursAgo(h);
  }

  // ---- Ticker chips ----

  /** The chips under an article: at most three tickers and a "+N" count of the rest. */
  datatype Chips = Chips(shown: seq<string>, more: Option<string>)

  /** The chip row; nothing is drawn without tickers. */
  function TickerChips(tickers: Option<seq<string>>): (r: Option<Chips>)
    ensures r.None? <==> tickers.None? || |tickers.value| == 0
    ensures r.Some? ==> |r.value.shown| == if |tickers.value| < 3 then |tickers.value| else 3
    ensures r.Some? ==> forall i :: 0 <= i < |r.value.shown| ==> r.value.shown[i] == tickers.value[i]
    ensures r.Some? ==> (r.value.more.Some? <==> |tickers.value| > 3)
  {
    if tickers.None? || |tickers.value| == 0 then None
    else
      var t := tickers.value;
      Some(Chips(if |t| <= 3 then t else t[..3], if |t| > 3 then Some("+" + IntToString(|t| - 3)) else None))
  }

  /** The chips account for every ticker: those shown plus the counted rest. */
  lemma ChipsAccountForAll(tickers: seq<string>)
    requires |tickers| > 0
    ensures var c := TickerChips(Some(tickers)).value;
            |c.shown| + (if c.more.Some? then ParseNat(c.more.value[1..]) else 0) == |tickers|
  {
    if |tickers| > 3 {
      ParseNatToString(|tickers| - 3);
    }
  }
}

=== FILE: seqs.dfy ===
/** Sequence utilities the source gets from JavaScript arrays: `filter` and a stable `sort`. */
module Seqs {

  /** `a` can be obtained from `b` by deleting elements, keeping the order of the rest. */
  predicate IsSubseq<T(==)>(a: seq<T>, b: seq<T>)
    decreases |b|
  {
    if |a| == 0 then true
    else if |b| == 0 then false
    else (a[0] == b[0] && IsSubseq(a[1..], b[1..])) || IsSubseq(a, b[1..])
  }

  /** Every sequence is a subsequence of itself. */
  lemma {:induction false} SubseqRefl<T>(s: seq<T>)
    ensures IsSubseq(s, s)
    decreases |s|
  {
    if |s| > 0 {
      SubseqRefl(s[1..]);
    }
  }

  /** Array.prototype.filter: the elements satisfying `p`, in their original order. */
  function Filter<T(==)>(s: seq<T>, p: T -> bool): (r: seq<T>)
    ensures |r| <= |s|
    ensures forall i :: 0 <= i < |r| ==> r[i] in s && p(r[i])
    ensures forall i :: 0 <= i < |s| && p(s[i]) ==> s[i] in r
    ensures IsSubseq(r, s)
    decreases |s|
  {
    if |s| == 0 then []
    else
      assert s == [s[0]] + s[1..];
      if p(s[0]) then [s[0]] + Filter(s[1..], p) else Filter(s[1..], p)
  }

  /** Filtering an extended sequence filters the old part and then tests the new element. */
  lemma {:induction false} FilterSnoc<T>(s: seq<T>, x: T, p: T -> bool)
    ensures Filter(s + [x], p) == Filter(s, p) + (if p(x) then [x] else [])
    decreases |s|
  {
    if |s| == 0 {
      assert s + [x] == [x];
    } else {
      assert (s + [x])[1..] == s[1..] + [x];
      FilterSnoc(s[1..], x, p);
    }
  }

  /** A filter that keeps everything is the identity. */
  lemma {:induction false} FilterKeepsAll<T>(s: seq<T>, p: T -> bool)
    requires forall i :: 0 <= i < |s| ==> p(s[i])
    ensures Filter(s, p) == s
    decreases |s|
  {
    if |s| > 0 {
      FilterKeepsAll(s[1..], p);
      assert s == [s[0]] + s[1..];
    }
  }

  /** Filtering keeps every copy of a passing element and none of a failing one. */
  lemma {:induction false} FilterCount<T>(s: seq<T>, p: T -> bool, x: T)
    ensures multiset(Filter(s, p))[x] == if p(x) then multiset(s)[x] else 0
    decreases |s|
  {
    if |s| > 0 {
      FilterCount(s[1..], p, x);
      assert s == [s[0]] + s[1..];
    }
  }

  /** `FilterCount` for every element at once. */
  lemma FilterCounts<T(!new)>(s: seq<T>, p: T -> bool)
    ensures forall x {:trigger multiset(Filter(s, p))[x]} :: multiset(Filter(s, p))[x] == if p(x) then multiset(s)[x] else 0
  {
    forall x ensures multiset(Filter(s, p))[x] == if p(x) then multiset(s)[x] else 0 {
      FilterCount(s, p, x);
    }
  }

  /** Permuted inputs filter to permuted outputs. */
  lemma FilterPermutation<T(!new)>(a: seq<T>, b: seq<T>, p: T -> bool)
    requires multiset(a) == multiset(b)
    ensures multiset(Filter(a, p)) == multiset(Filter(b, p))
  {
    FilterCounts(a, p);
    FilterCounts(b, p);
  }

  /** `le` is total and transitive: a comparator Array.prototype.sort can use consistently. */
  ghost predicate TotalPreorder<T(!new)>(le: (T, T) -> bool)
  {
    && (forall a, b :: le(a, b) || le(b, a))
    && (forall a, b, c :: le(a, b) && le(b, c) ==> le(a, c))
  }

  /** Every earlier element is `le` every later one. */
  predicate SortedBy<T>(s: seq<T>, le: (T, T) -> bool)
  {
    forall i, j :: 0 <= i < j < |s| ==> le(s[i], s[j])
  }

  /** Puts `x` before the first element it is `le`; equal elements keep `x` first. */
  function Insert<T(!new)>(x: T, s: seq<T>, le: (T, T) -> bool): (r: seq<T>)
    requires TotalPreorder(le)
    requires SortedBy(s, le)
    ensures multiset(r) == multiset(s) + multiset{x}
    ensures SortedBy(r, le)
    decreases |s|
  {
    if |s| == 0 then [x]
    else if le(x, s[0]) then [x] + s
    else
      var rest := Insert(x, s[1..], le);
      assert s == [s[0]] + s[1..];
      assert forall y :: y in rest ==> y in multiset(s[1..]) + multiset{x};
      assert forall j :: 0 <= j < |rest| ==> le(s[0], rest[j]) by {
        forall j | 0 <= j < |rest|
          ensures le(s[0], rest[j])
        {
          assert rest[j] in multiset(rest);
          if rest[j] != x {
            assert rest[j] in multiset(s[1..]);
            assert rest[j] in s[1..];
          }
        }
      }
      [s[0]] + rest
  }

  /** A stable sort by `le`: the result is a permutation of `s` ordered by `le`. */
  function SortBy<T(!new)>(s: seq<T>, le: (T, T) -> bool): (r: seq<T>)
    requires TotalPreorder(le)
    ensures multiset(r) == multiset(s)
    ensures SortedBy(r, le)
    decreases |s|
  {
    if |s| == 0 then []
    else
      assert s == [s[0]] + s[1..];
      Insert(s[0], SortBy(s[1..], le), le)
  }

  /** Two such orderings start with the same element. */
  lemma SortedSameHead<T>(x: seq<T>, y: seq<T>, le: (T, T) -> bool)
    requires |x| > 0 && SortedBy(x, le) && SortedBy(y, le) && multiset(x) == multiset(y)
    requires forall p, q :: p in x && q in x && le(p, q) && le(q, p) ==> p == q
    ensures |y| > 0 && x[0] == y[0]
  {
    assert x[0] in multiset(y);
    assert y[0] in multiset(x);
    var j :| 0 <= j < |y| && y[j] == x[0];
    var i :| 0 <= i < |x| && x[i] == y[0];
    if i > 0 && j > 0 {
      assert le(x[0], y[0]) && le(y[0], x[0]);
    }
  }

  /** Dropping the head removes one copy of it. */
  lemma TailMultiset<T>(x: seq<T>)
    requires |x| > 0
    ensures multiset(x[1..]) == multiset(x) - multiset{x[0]}
  {
    assert x == [x[0]] + x[1..];
  }

  /**
   * Two orderings of the same elements sorted by `le` coincide when no two
   * different elements are ordered both ways.
   */
  lemma {:induction false} SortedUnique<T>(x: seq<T>, y: seq<T>, le: (T, T) -> bool)
    requires SortedBy(x, le) && SortedBy(y, le) && multiset(x) == multiset(y)
    requires forall p, q :: p in x && q in x && le(p, q) && le(q, p) ==> p == q
    ensures x == y
    decreases |x|
  {
    if |x| > 0 {
      SortedSameHead(x, y, le);
      TailMultiset(x);
      TailMultiset(y);
      assert forall p :: p in x[1..] ==> p in x;
      SortedUnique(x[1..], y[1..], le);
      assert x == [x[0]] + x[1..] && y == [y[0]] + y[1..];
    }
  }
}

=== FILE: stock_api.dfy ===
/**
 * The API client of `src/api/stockApi.js`: the classification of a decoded
 * response in `makeRequest`, the cache key of every endpoint wrapper, its
 * failure policy, and the read-through step every wrapper performs.
 *
 * A wrapper call is a pure transition from the storage before the call to
 * the storage after it, the value returned or error thrown, and whether the
 * remote request was made. The network reply, the clock and the storage
 * faults are parameters.
 */
module StockApi {
  import opened Wrappers
  import opened Strings
  import opened Json
  import opened Cache
  import opened MockData

  // ---- makeRequest ----

  /** Why `makeRequest` throws. */
  datatype ApiError =
      /**
       * `fetch` rejected, with the engine's text from the `Reply`, or
       * `response.json()` could not parse the body, where the model puts the
       * placeholder text "response body is not JSON" in place of the
       * engine's parse error.
       */
    | NetworkFailure(message: string)
      /** `response.ok` was false. */
    | HttpError(status: int)
      /**
       * The body was JSON `null`: reading `data['Error Message']` throws a
       * TypeError, whose engine-supplied text the model does not carry.
       */
    | NullBody
      /** A truthy `Error Message` field. */
    | ErrorMessage(detail: Json)
      /** A truthy `Note` field: the rate-limit notice. */
    | RateLimited
      /** A truthy `Information` field. */
    | Information(information: Json)

  /**
   * The message of the thrown error: the text the source builds, or the one
   * the model carries for a network failure. None only for the null-body
   * TypeError, whose text the engine supplies and the model does not carry.
   */
  function ErrorText(e: ApiError): (r: Option<string>)
    ensures r.None? <==> e.NullBody?
    ensures e.NetworkFailure? ==> r == Some(e.message)
    ensures e.HttpError? ==> StartsWith(r.value, "HTTP error! status: ")
    ensures e.HttpError? ==> r.value[|"HTTP error! status: "|..] == IntToString(e.status)
    ensures e.ErrorMessage? ==> r == Some(ToText(e.detail))
    ensures e.Information? ==> StartsWith(r.value, "API Information: ")
    ensures e.Information? ==> r.value[|"API Information: "|..] == ToText(e.information)
    ensures e.RateLimited? ==> r.value == "API call frequency limit reached. Please try again later."
  {
    match e
    case NetworkFailure(m) => Some(m)
    case HttpError(status) =>
      var p := "HTTP error! status: ";
      assert (p + IntToString(status))[..|p|] == p;
      assert (p + IntToString(status))[|p|..] == IntToString(status);
      Some(p + IntToString(status))
    case NullBody => None
    case ErrorMessage(m) => Some(ToText(m))
    case RateLimited => Some("API call frequency limit reached. Please try again later.")
    case Information(i) =>
      var p := "API Information: ";
      assert (p + ToText(i))[..|p|] == p;
      assert (p + ToText(i))[|p|..] == ToText(i);
      Some(p + ToText(i))
  }

  /** Distinct HTTP statuses give distinct error messages. */
  lemma HttpErrorTextInjective(s1: int, s2: int)
    requires ErrorText(HttpError(s1)) == ErrorText(HttpError(s2))
    ensures s1 == s2
  {
    var p := "HTTP error! status: ";
    var t1 := IntToString(s1);
    var t2 := IntToString(s2);
    assert (p + t1)[|p|..] == t1 && (p + t2)[|p|..] == t2;
    assert t1 == t2;
    if s1 < 0 {
      assert t1 == "-" + NatToString(-s1) && t2 == "-" + NatToString(-s2);
      assert t1[1..] == NatToString(-s1) && t2[1..] == NatToString(-s2);
      NatToStringInjective(-s1, -s2);
    } else {
      NatToStringInjective(s1, s2);
    }
  }

  /** What `fetch` produced: no response at all, or a status and a body (None if it is not JSON). */
  datatype Reply =
    | NoResponse(message: string)
    | Response(ok: bool, status: int, body: Option<Json>)

  /** None of the three in-band error fields is set. */
  predicate Clean(data: Json)
  {
    !Truthy(Member(data, "Error Message")) && !Truthy(Member(data, "Note")) && !Truthy(Member(data, "Information"))
  }

  /**
   * `makeRequest` once the reply is in: a failed status, then `Error
   * Message`, then `Note`, then `Information` each throw; only a clean body
   * is returned.
   */
  function MakeRequest(reply: Reply): (r: Result<Json, ApiError>)
    ensures r.Success? <==>
              reply.Response? && reply.ok && reply.body.Some? && reply.body.value != JNull && Clean(reply.body.value)
    ensures r.Success? ==> r.value == reply.body.value
    ensures reply.NoResponse? ==> r == Failure(NetworkFailure(reply.message))
    ensures reply.Response? && !reply.ok ==> r == Failure(HttpError(reply.status))
    ensures reply.Response? && reply.ok && reply.body.None? ==> r.Failure? && r.error.NetworkFailure?
    ensures reply.Response? && reply.ok && reply.body == Some(JNull) ==> r == Failure(NullBody)
    ensures reply.Response? && reply.ok && reply.body.Some? && reply.body.value != JNull ==>
              var data := reply.body.value;
              && (Truthy(Member(data, "Error Message")) ==> r == Failure(ErrorMessage(Member(data, "Error Message"))))
              && (!Truthy(Member(data, "Error Message")) && Truthy(Member(data, "Note")) ==> r == Failure(RateLimited))
              && (!Truthy(Member(data, "Error Message")) && !Truthy(Member(data, "Note")) && Truthy(Member(data, "Information")) ==>
                    r == Failure(Information(Member(data, "Information"))))
    ensures r.Failure? && r.error.ErrorMessage? ==>
              reply.Response? && reply.ok && reply.body.Some? && r.error.detail == Member(reply.body.value, "Error Message")
    ensures r.Failure? && r.error.RateLimited? ==>
              reply.Response? && reply.body.Some? && !Truthy(Member(reply.body.value, "Error Message"))
              && Truthy(Member(reply.body.value, "Note"))
    ensures r.Failure? && r.error.Information? ==>
              reply.Response? && reply.body.Some? && !Truthy(Member(reply.body.value, "Error Message"))
              && !Truthy(Member(reply.body.value, "Note")) && r.error.information == Member(reply.body.value, "Information")
  {
    match reply
    case NoResponse(m) => Failure(NetworkFailure(m))
    case Response(ok, status, body) =>
      if !ok then Failure(HttpError(status))
      else if body.None? then Failure(NetworkFailure("response body is not JSON"))
      else
        var data := body.value;
        if data == JNull then Failure(NullBody)
        else if Truthy(Member(data, "Error Message")) then Failure(ErrorMessage(Member(data, "Error Message")))
        else if Truthy(Member(data, "Note")) then Failure(RateLimited)
        else if Truthy(Member(data, "Information")) then Failure(Information(Member(data, "Information")))
        else Success(data)
  }

  // ---- Endpoints and their cache keys ----

  /** One call of an endpoint wrapper, with every argument it takes. */
  datatype Request =
    | TopGainersLosers
    | GlobalQuote(symbol: string)
    | Intraday(symbol: string, interval: string, outputSize: string)
    | CompanyOverview(symbol: string)
    | NewsSentiment(tickers: Option<string>, topics: Option<string>, timeFrom: Option<string>,
                    timeTo: Option<string>, sort: string, limit: int)
    | MarketStatus
    | Earnings(symbol: string)
    | IncomeStatement(symbol: string)
    | BalanceSheet(symbol: string)
    | CashFlow(symbol: string)
    | Sma(symbol: string, interval: string, timePeriod: int, seriesType: string)
    | Ema(symbol: string, interval: string, timePeriod: int, seriesType: string)
    | Rsi(symbol: string, interval: string, timePeriod: int, seriesType: string)
    | Macd(symbol: string, interval: string, seriesType: string, fastPeriod: int, slowPeriod: int, signalPeriod: int)
    | TimeSeriesDaily(symbol: string, outputSize: string)
    | SearchSymbol(keywords: string)

  /** `tickers || 'all'`. */
  function TickersOrAll(tickers: Option<string>): (r: string)
    ensures r != ""
  {
    if tickers.None? || tickers.value == "" then "all" else tickers.value
  }

  /** The literal each wrapper's key starts with, naming its endpoint. */
  function KeyHead(req: Request): string
  {
    match req
    case TopGainersLosers => "topGainersLosers"
    case GlobalQuote(_) => "globalQuote_"
    case Intraday(_, _, _) => "intraday_"
    case CompanyOverview(_) => "companyOverview_"
    case NewsSentiment(_, _, _, _, _, _) => "newsSentiment_"
    case MarketStatus => "marketStatus"
    case Earnings(_) => "earnings_"
    case IncomeStatement(_) => "incomeStatement_"
    case BalanceSheet(_) => "balanceSheet_"
    case CashFlow(_) => "cashFlow_"
    case Sma(_, _, _, _) => "sma_"
    case Ema(_, _, _, _) => "ema_"
    case Rsi(_, _, _, _) => "rsi_"
    case Macd(_, _, _, _, _, _) => "macd_"
    case TimeSeriesDaily(_, _) => "timeSeries_"
    case SearchSymbol(_) => "search_"
  }

  /** The arguments each wrapper appends to its endpoint literal, `_`-separated. */
  function KeyArgs(req: Request): string
  {
    match req
    case TopGainersLosers => ""
    case GlobalQuote(s) => s
    case Intraday(s, interval, _) => s + "_" + interval
    case CompanyOverview(s) => s
    case NewsSentiment(tickers, _, _, _, _, limit) => TickersOrAll(tickers) + "_" + IntToString(limit)
    case MarketStatus => ""
    case Earnings(s) => s
    case IncomeStatement(s) => s
    case BalanceSheet(s) => s
    case CashFlow(s) => s
    case Sma(s, interval, period, _) => s + "_" + interval + "_" + IntToString(period)
    case Ema(s, interval, period, _) => s + "_" + interval + "_" + IntToString(period)
    case Rsi(s, interval, period, _) => s + "_" + interval + "_" + IntToString(period)
    case Macd(s, interval, _, _, _, _) => s + "_" + interval
    case TimeSeriesDaily(s, outputSize) => s + "_" + outputSize
    case SearchSymbol(k) => k
  }

  /** The cache key each wrapper builds by string concatenation. */
  function CacheKey(req: Request): (k: string)
    ensures StartsWith(k, KeyHead(req))
    ensures (req.GlobalQuote? || req.CompanyOverview? || req.Earnings? || req.IncomeStatement? || req.BalanceSheet?
             || req.CashFlow?) ==> k[|KeyHead(req)|..] == req.symbol
    ensures req.SearchSymbol? ==> k[|KeyHead(req)|..] == req.keywords
    ensures req.TopGainersLosers? || req.MarketStatus? ==> k == KeyHead(req)
  {
    var h := KeyHead(req);
    assert (h + KeyArgs(req))[..|h|] == h;
    assert (h + KeyArgs(req))[|h|..] == KeyArgs(req);
    h + KeyArgs(req)
  }

  /** The endpoint literal that a key's first three characters identify, if any. */
  function HeadOfTag(tag: string): string
  {
    if |tag| != 3 then ""
    else match tag[0]
      case 't' => if tag[1] == 'o' then "topGainersLosers" else if tag[1] == 'i' then "timeSeries_" else ""
      case 'g' => "globalQuote_"
      case 'i' => if tag[2] == 't' then "intraday_" else if tag[2] == 'c' then "incomeStatement_" else ""
      case 'c' => if tag[1] == 'o' then "companyOverview_" else if tag[1] == 'a' then "cashFlow_" else ""
      case 'n' => "newsSentiment_"
      case 'm' => if tag[2] == 'r' then "marketStatus" else if tag[2] == 'c' then "macd_" else ""
      case 'e' => if tag[1] == 'a' then "earnings_" else if tag[1] == 'm' then "ema_" else ""
      case 'b' => "balanceSheet_"
      case 's' => if tag[1] == 'm' then "sma_" else if tag[1] == 'e' then "search_" else ""
      case 'r' => "rsi_"
      case _ => ""
  }

  /** An endpoint literal is determined by its first three characters. */
  lemma HeadFromTag(req: Request)
    ensures |KeyHead(req)| >= 3 && HeadOfTag(KeyHead(req)[..3]) == KeyHead(req)
  {
    var h := KeyHead(req);
    var tag := h[..3];
    assert |tag| == 3 && tag[0] == h[0] && tag[1] == h[1] && tag[2] == h[2];
  }

  /** Calls to different endpoints never share a key: the first three characters already tell them apart. */
  lemma EndpointsSeparate(r1: Request, r2: Request)
    requires KeyHead(r1) != KeyHead(r2)
    ensures CacheKey(r1) != CacheKey(r2)
  {
    var h1, h2 := KeyHead(r1), KeyHead(r2);
    HeadFromTag(r1);
    HeadFromTag(r2);
    assert CacheKey(r1)[..3] == h1[..3];
    assert CacheKey(r2)[..3] == h2[..3];
  }

  /** The intraday key separates intervals of the same symbol. */
  lemma IntradayIntervalsSeparate(symbol: string, i1: string, i2: string, o1: string, o2: string)
    requires i1 != i2
    ensures CacheKey(Intraday(symbol, i1, o1)) != CacheKey(Intraday(symbol, i2, o2))
  {
    var p := "intraday_" + symbol + "_";
    var k1, k2 := CacheKey(Intraday(symbol, i1, o1)), CacheKey(Intraday(symbol, i2, o2));
    assert k1 == p + i1 by {
      assert KeyArgs(Intraday(symbol, i1, o1)) == symbol + "_" + i1;
    }
    assert k2 == p + i2 by {
      assert KeyArgs(Intraday(symbol, i2, o2)) == symbol + "_" + i2;
    }
    assert k1[|p|..] == i1 && k2[|p|..] == i2;
  }

  /** Keys as written are not injective: the intraday key ignores the output size. */
  lemma IntradayKeyIgnoresOutputSize(symbol: string, interval: string, o1: string, o2: string)
    ensures CacheKey(Intraday(symbol, interval, o1)) == CacheKey(Intraday(symbol, interval, o2))
  {
  }

  /** The news key ignores topics, the time window and the sort order. */
  lemma NewsKeyIgnoresTopics(tickers: Option<string>, limit: int, r1: Request, r2: Request)
    requires r1.NewsSentiment? && r2.NewsSentiment?
    requires r1.tickers == r2.tickers == tickers && r1.limit == r2.limit == limit
    ensures CacheKey(r1) == CacheKey(r2)
  {
  }

  /** The MACD key ignores the series type and the three periods. */
  lemma MacdKeyIgnoresPeriods(r1: Request, r2: Request)
    requires r1.Macd? && r2.Macd? && r1.symbol == r2.symbol && r1.interval == r2.interval
    ensures CacheKey(r1) == CacheKey(r2)
  {
  }

  /** An underscore inside a parameter makes two different calls share one key. */
  lemma UnderscoreCollision()
    ensures Intraday("A_B", "5min", "compact") != Intraday("A", "B_5min", "compact")
    ensures CacheKey(Intraday("A_B", "5min", "compact")) == CacheKey(Intraday("A", "B_5min", "compact"))
    ensures CacheKey(NewsSentiment(None, None, None, None, "LATEST", 50))
            == CacheKey(NewsSentiment(Some("all"), None, None, None, "LATEST", 50))
  {
    assert IntToString(50) == "50" by {
      assert NatToString(50) == NatToString(5) + [DigitChar(0)];
    }
  }

  /** A string that differs from `p` at a position both have does not start with `p`. */
  lemma DiffersAt(k: string, p: string, i: nat)
    requires i < |p| && i < |k| && k[i] != p[i]
    ensures !StartsWith(k, p)
  {
    if |p| <= |k| {
      assert k[..|p|][i] != p[i];
    }
  }

  /** No key whose first two characters match none of the prefixes' is cleared. */
  lemma NotCacheKey(k: string)
    requires |k| >= 2
    requires !(k[0] == 't' && (k[1] == 'o' || k[1] == 'i'))
    requires !(k[0] == 'c' && k[1] == 'o')
    requires !(k[0] == 's' && k[1] == 'e')
    ensures !IsCacheKey(k)
  {
    var P := CachePrefixes;
    forall i | 0 <= i < |P| ensures !StartsWith(k, P[i]) {
      if k[0] != P[i][0] {
        DiffersAt(k, P[i], 0);
      } else {
        DiffersAt(k, P[i], 1);
      }
    }
  }

  /** `head + s` starts with `head`. */
  lemma HeadStarts(head: string, s: string)
    ensures StartsWith(head + s, head)
  {
    assert (head + s)[..|head|] == head;
  }

  /** `clearCache` invalidates exactly the snapshot, overview, daily-series and search keys. */
  lemma {:induction false} ClearCacheScope(req: Request)
    ensures IsCacheKey(CacheKey(req)) <==>
              req.TopGainersLosers? || req.CompanyOverview? || req.TimeSeriesDaily? || req.SearchSymbol?
  {
    var k := CacheKey(req);
    var P := CachePrefixes;
    match req {
      case TopGainersLosers =>
        HeadStarts(P[0], "");
        assert "topGainersLosers" + "" == k;
      case CompanyOverview(s) =>
        HeadStarts(P[1], s);
      case TimeSeriesDaily(s, o) =>
        HeadStarts(P[2], s + "_" + o);
        assert P[2] + (s + "_" + o) == k;
      case SearchSymbol(s) =>
        HeadStarts(P[3], s);
      case GlobalQuote(s) => NotCacheKey(k);
      case Intraday(s, i, _) => NotCacheKey(k);
      case NewsSentiment(t, _, _, _, _, l) => NotCacheKey(k);
      case MarketStatus => NotCacheKey(k);
      case Earnings(s) => NotCacheKey(k);
      case IncomeStatement(s) => NotCacheKey(k);
      case BalanceSheet(s) => NotCacheKey(k);
      case CashFlow(s) => NotCacheKey(k);
      case Sma(s, i, n, _) => NotCacheKey(k);
      case Ema(s, i, n, _) => NotCacheKey(k);
      case Rsi(s, i, n, _) => NotCacheKey(k);
      case Macd(s, i, _, _, _, _) => NotCacheKey(k);
    }
  }

  // ---- Failure policy ----

  /** What a wrapper does when `makeRequest` throws: rethrow, or return a synthetic payload uncached. */
  datatype FailurePolicy = Propagate | Substitute(fallback: Json)

  /**
   * The ambient inputs of the fallbacks: `new Date().toISOString()`, the
   * local date fields `h` hours before now, and the random daily series.
   */
  datatype Ambient = Ambient(isoNow: string, stampOf: nat -> DateParts, randomSeries: string -> Json)

  /** The wrappers whose catch block returns synthetic data. */
  predicate FallsBack(req: Request)
  {
    req.TopGainersLosers? || req.CompanyOverview? || req.NewsSentiment? || req.TimeSeriesDaily? || req.SearchSymbol?
  }

  /** The synthetic payload a catch block returns, named by the generator it calls. */
  datatype Fallback =
    | MockSnapshot
    | MockOverview(symbol: string)
    | MockNews(tickers: Option<string>, topics: Option<string>)
    | RandomSeries(symbol: string)
    | MockSearch(keywords: string)

  /** The catch block of each wrapper: which generator it calls, if any. */
  function FallbackOf(req: Request): (f: Option<Fallback>)
    ensures f.Some? <==> FallsBack(req)
    ensures req.CompanyOverview? ==> f == Some(MockOverview(req.symbol))
    ensures req.SearchSymbol? ==> f == Some(MockSearch(req.keywords))
    ensures req.NewsSentiment? ==> f == Some(MockNews(req.tickers, req.topics))
  {
    match req
    case TopGainersLosers => Some(MockSnapshot)
    case CompanyOverview(s) => Some(MockOverview(s))
    case NewsSentiment(tickers, topics, _, _, _, _) => Some(MockNews(tickers, topics))
    case TimeSeriesDaily(s, _) => Some(RandomSeries(s))
    case SearchSymbol(k) => Some(MockSearch(k))
    case _ => None
  }

  /** The payload each generator produces. */
  function Payload(f: Fallback, amb: Ambient): Json
  {
    match f
    case MockSnapshot => MockTopGainersLosers(amb.isoNow)
    case MockOverview(s) => MockCompanyOverview(s)
    case MockNews(tickers, topics) => NewsJson(MockNewsData(tickers, topics), amb.stampOf)
    case RandomSeries(s) => amb.randomSeries(s)
    case MockSearch(k) => SearchFallback(k)
  }

  /** The failure policy of the wrapper for `req`. */
  function PolicyOf(req: Request, amb: Ambient): (p: FailurePolicy)
    ensures p.Substitute? <==> FallsBack(req)
  {
    match FallbackOf(req)
    case None => Propagate
    case Some(f) => Substitute(Payload(f, amb))
  }

  /** Every key `clearCache` removes belongs to a wrapper with a fallback. */
  lemma ClearedKeysFallBack(req: Request)
    requires IsCacheKey(CacheKey(req))
    ensures FallsBack(req)
  {
    ClearCacheScope(req);
  }

  // ---- The read-through step ----

  /** What a wrapper call hands its caller. */
  datatype Outcome = Returned(value: Json) | Thrown(error: ApiError)

  /** The storage after a wrapper call, its outcome, and whether the request was made. */
  datatype Step = Step(store: Store, outcome: Outcome, requested: bool)

  /** A read of `key` at `now` returns a truthy value, so the wrapper returns it. */
  predicate Hit(store: Store, key: string, now: int, ttl: int)
  {
    Fresh(store, key, now, ttl) && Truthy(store[key].data)
  }

  /**
   * The body every wrapper shares: read the cache; a truthy value is
   * returned; otherwise request, store and return the data; if the request
   * throws, apply the wrapper's failure policy.
   */
  function ReadThrough(store: Store, now: int, ttl: int, io: Io, key: string, reply: Reply, policy: FailurePolicy): (r: Step)
    ensures !r.requested <==> io.getOk && Hit(store, key, now, ttl)
    ensures !r.requested ==> r.store == store && r.outcome == Returned(store[key].data)
    ensures forall k :: k != key ==> (k in r.store <==> k in store)
    ensures forall k :: k != key && k in r.store ==> r.store[k] == store[k]
    ensures r.requested && MakeRequest(reply).Success? ==>
              r.outcome == Returned(MakeRequest(reply).value)
              && (io.setOk ==> key in r.store && r.store[key] == Record(MakeRequest(reply).value, now))
              && (!io.setOk ==> (key in r.store ==> key in store && r.store[key] == store[key]))
    ensures r.requested && MakeRequest(reply).Failure? ==>
              r.outcome == (if policy.Propagate? then Thrown(MakeRequest(reply).error) else Returned(policy.fallback))
              && (key in r.store ==> key in store && r.store[key] == store[key])
    ensures r.requested && !(MakeRequest(reply).Success? && io.setOk) ==>
              (key in r.store <==> key in store && !(io.getOk && io.removeOk && Expired(store[key], now, ttl)))
  {
    var read := GetCachedData(store, key, now, ttl, io);
    if Truthy(read.value) then Step(read.store, Returned(read.value), false)
    else
      match MakeRequest(reply)
      case Success(data) => Step(SetCachedData(read.store, key, data, now, io), Returned(data), true)
      case Failure(e) =>
        Step(read.store, if policy.Propagate? then Thrown(e) else Returned(policy.fallback), true)
  }

  /** A call of the wrapper for `req`. */
  function Fetch(req: Request, store: Store, now: int, ttl: int, io: Io, reply: Reply, amb: Ambient): (r: Step)
    ensures !r.requested <==> io.getOk && Hit(store, CacheKey(req), now, ttl)
    ensures r.requested && MakeRequest(reply).Failure? ==>
              (r.outcome.Thrown? <==> !FallsBack(req))
              && (r.outcome.Thrown? ==> r.outcome.error == MakeRequest(reply).error)
    ensures r.requested && MakeRequest(reply).Failure? && FallsBack(req) ==>
              r.outcome == Returned(Payload(FallbackOf(req).value, amb))
    ensures r.requested && MakeRequest(reply).Failure? ==>
              forall k :: k in r.store ==> k in store && r.store[k] == store[k]
  {
    ReadThrough(store, now, ttl, io, CacheKey(req), reply, PolicyOf(req, amb))
  }

  /** The top-gainers fallback is stamped with the current time. */
  lemma SnapshotFallbackStamped(amb: Ambient)
    ensures Member(Payload(FallbackOf(TopGainersLosers).value, amb), "last_updated") == JStr(amb.isoNow)
  {
    assert FallbackOf(TopGainersLosers) == Some(MockSnapshot);
  }

  /** The company-overview fallback names the requested symbol. */
  lemma OverviewFallbackEchoes(symbol: string, amb: Ambient)
    ensures Member(Payload(FallbackOf(CompanyOverview(symbol)).value, amb), "Symbol") == JStr(symbol)
    ensures Member(Payload(FallbackOf(CompanyOverview(symbol)).value, amb), "Name") == JStr(symbol + " Inc.")
  {
    assert FallbackOf(CompanyOverview(symbol)) == Some(MockOverview(symbol));
  }

  /** The daily-series fallback is the random series for the symbol, whatever the output size. */
  lemma SeriesFallbackIsRandom(symbol: string, outputSize: string, amb: Ambient)
    ensures Payload(FallbackOf(TimeSeriesDaily(symbol, outputSize)).value, amb) == amb.randomSeries(symbol)
  {
    assert FallbackOf(TimeSeriesDaily(symbol, outputSize)) == Some(RandomSeries(symbol));
  }

  /** The search fallback's one match carries the upper-cased query as its symbol. */
  lemma SearchFallbackEchoes(keywords: string, amb: Ambient)
    ensures var matches := Member(Payload(FallbackOf(SearchSymbol(keywords)).value, amb), "bestMatches");
            matches.JArr? && |matches.items| == 1 && Member(matches.items[0], "1. symbol") == JStr(Upper(keywords))
  {
    assert FallbackOf(SearchSymbol(keywords)) == Some(MockSearch(keywords));
  }

  /** After a fallback, a read of the key at the same time is still a miss: the fallback was not cached. */
  lemma FallbackNotCached(store: Store, now: int, ttl: int, io: Io, key: string, reply: Reply, policy: FailurePolicy,
                          io': Io, reply': Reply, policy': FailurePolicy)
    requires io.getOk
    requires policy.Substitute? && MakeRequest(reply).Failure?
    ensures var s := ReadThrough(store, now, ttl, io, key, reply, policy);
            s.requested ==> ReadThrough(s.store, now, ttl, io', key, reply', policy').requested
  {
    var s := ReadThrough(store, now, ttl, io, key, reply, policy);
    if s.requested && key in s.store {
      assert store[key] == s.store[key];
      assert !Hit(s.store, key, now, ttl);
    }
  }

  /** A stored, truthy response is served from the cache until it expires, without a request. */
  lemma StoredThenServed(store: Store, t0: int, t1: int, ttl: int, io: Io, key: string, reply: Reply, policy: FailurePolicy,
                         io': Io, reply': Reply, policy': FailurePolicy)
    requires io.setOk && io'.getOk
    requires MakeRequest(reply).Success? && Truthy(MakeRequest(reply).value)
    requires t1 - t0 <= ttl
    ensures var s := ReadThrough(store, t0, ttl, io, key, reply, policy);
            s.requested ==> ReadThrough(s.store, t1, ttl, io', key, reply', policy') == Step(s.store, s.outcome, false)
  {
  }

  /** Once expired, a stored response is requested again, and a new response replaces it. */
  lemma ExpiredThenRefreshed(store: Store, t0: int, t1: int, ttl: int, io: Io, key: string, reply: Reply, policy: FailurePolicy,
                             reply': Reply, policy': FailurePolicy)
    requires io == Healthy
    requires MakeRequest(reply).Success? && MakeRequest(reply').Success?
    requires t0 != 0 && t1 - t0 > ttl
    ensures var s := ReadThrough(store, t0, ttl, io, key, reply, policy);
            var s' := ReadThrough(s.store, t1, ttl, io, key, reply', policy');
            s.requested ==> s'.requested && s'.outcome == Returned(MakeRequest(reply').value)
                            && s'.store[key] == Record(MakeRequest(reply').value, t1)
  {
  }

  /** A response written at time 0 carries a falsy timestamp and is served forever. */
  lemma EpochZeroNeverExpires(store: Store, t1: int, ttl: int, key: string, reply: Reply, policy: FailurePolicy,
                              reply': Reply, policy': FailurePolicy)
    requires MakeRequest(reply).Success? && Truthy(MakeRequest(reply).value)
    ensures var s := ReadThrough(store, 0, ttl, Healthy, key, reply, policy);
            s.requested ==> !ReadThrough(s.store, t1, ttl, Healthy, key, reply', policy').requested
  {
  }

  /**
   * One hour of time-to-live: a quote requested at t=1 is served from the
   * cache half an hour later and requested again after 3700 seconds.
   */
  lemma RefreshScenario(p150: Json, p151: Json)
    requires p150 == JObj(map["price" := Num(150)]) && p151 == JObj(map["price" := Num(151)])
    ensures var ttl := 3600000;
            var s0 := ReadThrough(map[], 1, ttl, Healthy, "q_AAPL", Response(true, 200, Some(p150)), Propagate);
            var s1 := ReadThrough(s0.store, 1800001, ttl, Healthy, "q_AAPL", Response(true, 200, Some(p151)), Propagate);
            var s2 := ReadThrough(s1.store, 3700001, ttl, Healthy, "q_AAPL", Response(true, 200, Some(p151)), Propagate);
            && s0.requested && s0.outcome == Returned(p150)
            && !s1.requested && s1.outcome == Returned(p150)
            && s2.requested && s2.outcome == Returned(p151) && s2.store["q_AAPL"] == Record(p151, 3700001)
  {
    assert Clean(p150) && Clean(p151);
  }

  /** The company-overview fallback for "ZZZZ" echoes the symbol and leaves its key unwritten. */
  lemma OverviewFallbackScenario(reply: Reply, amb: Ambient)
    requires MakeRequest(reply).Failure?
    ensures var s := Fetch(CompanyOverview("ZZZZ"), map[], 5, 3600000, Healthy, reply, amb);
            && s.outcome.Returned?
            && Member(s.outcome.value, "Symbol") == JStr("ZZZZ")
            && "companyOverview_ZZZZ" !in s.store
  {
    var s := Fetch(CompanyOverview("ZZZZ"), map[], 5, 3600000, Healthy, reply, amb);
    assert s.requested;
    OverviewFallbackEchoes("ZZZZ", amb);
  }
}

=== FILE: strings.dfy ===
/** The JavaScript string operations the core relies on, over `seq<char>`. */
module Strings {

  /** String.prototype.startsWith. */
  predicate StartsWith(s: string, prefix: string)
  {
    |prefix| <= |s| && s[..|prefix|] == prefix
  }

  /** `q` occurs in `s` starting at position `i`. */
  predicate OccursAt(s: string, q: string, i: int)
  {
    0 <= i && i + |q| <= |s| && s[i..i + |q|] == q
  }

  /** String.prototype.includes, by scanning `s` from the left. */
  predicate Includes(s: string, q: string)
    decreases |s|
  {
    StartsWith(s, q) || (|s| > 0 && Includes(s[1..], q))
  }

  /** The scan agrees with the positional definition of a substring. */
  lemma {:induction false} IncludesIffOccurs(s: string, q: string)
    ensures Includes(s, q) <==> exists i :: OccursAt(s, q, i)
    decreases |s|
  {
    if StartsWith(s, q) {
      assert OccursAt(s, q, 0);
    } else if |s| > 0 {
      IncludesIffOccurs(s[1..], q);
      if exists i :: OccursAt(s[1..], q, i) {
        var i :| OccursAt(s[1..], q, i);
        assert s[i + 1..i + 1 + |q|] == s[1..][i..i + |q|];
        assert OccursAt(s, q, i + 1);
      }
      if exists i :: OccursAt(s, q, i) {
        var i :| OccursAt(s, q, i);
        assert i != 0;
        assert s[1..][i - 1..i - 1 + |q|] == s[i..i + |q|];
        assert OccursAt(s[1..], q, i - 1);
      }
    }
  }

  // ---- Case mapping (ASCII letters; see README for the Unicode cases left out) ----

  function UpperChar(c: char): char
  {
    if 'a' <= c <= 'z' then (c as int - 32) as char else c
  }

  function LowerChar(c: char): char
  {
    if 'A' <= c <= 'Z' then (c as int + 32) as char else c
  }

  /** String.prototype.toUpperCase. */
  function Upper(s: string): (r: string)
    ensures |r| == |s|
    ensures forall i :: 0 <= i < |s| ==> r[i] == UpperChar(s[i])
  {
    seq(|s|, i requires 0 <= i < |s| => UpperChar(s[i]))
  }

  /** String.prototype.toLowerCase. */
  function Lower(s: string): (r: string)
    ensures |r| == |s|
    ensures forall i :: 0 <= i < |s| ==> r[i] == LowerChar(s[i])
  {
    seq(|s|, i requires 0 <= i < |s| => LowerChar(s[i]))
  }

  // ---- Trimming ----

  /** The white-space and line-terminator code points String.prototype.trim removes. */
  predicate IsJsSpace(c: char)
  {
    var n := c as int;
    n == 0x09 || n == 0x0A || n == 0x0B || n == 0x0C || n == 0x0D || n == 0x20
    || n == 0xA0 || n == 0x1680 || (0x2000 <= n <= 0x200A) || n == 0x2028 || n == 0x2029
    || n == 0x202F || n == 0x205F || n == 0x3000 || n == 0xFEFF
  }

  /** Drops leading white space: the result is a suffix that starts with a non-space. */
  function TrimStart(s: string): (r: string)
    ensures |r| <= |s| && r == s[|s| - |r|..]
    ensures forall k :: 0 <= k < |s| - |r| ==> IsJsSpace(s[k])
    ensures |r| > 0 ==> !IsJsSpace(r[0])
    decreases |s|
  {
    if |s| > 0 && IsJsSpace(s[0]) then TrimStart(s[1..]) else s
  }

  /** Drops trailing white space: the result is a prefix that ends with a non-space. */
  function TrimEnd(s: string): (r: string)
    ensures |r| <= |s| && r == s[..|r|]
    ensures forall k :: |r| <= k < |s| ==> IsJsSpace(s[k])
    ensures |r| > 0 ==> !IsJsSpace(r[|r| - 1])
    decreases |s|
  {
    if |s| > 0 && IsJsSpace(s[|s| - 1]) then TrimEnd(s[..|s| - 1]) else s
  }

  /** String.prototype.trim. */
  function Trim(s: string): (r: string)
    ensures |r| <= |s|
    ensures r == [] <==> forall k :: 0 <= k < |s| ==> IsJsSpace(s[k])
    ensures |r| > 0 ==> !IsJsSpace(r[0]) && !IsJsSpace(r[|r| - 1])
  {
    var t := TrimStart(s);
    var r := TrimEnd(t);
    r
  }

  // ---- Splitting ----

  /** The position of the first `c` in `s`. */
  function IndexOf(s: string, c: char): (i: nat)
    requires c in s
    ensures i < |s| && s[i] == c && c !in s[..i]
  {
    if s[0] == c then 0
    else
      assert c in s[1..] by { assert s == [s[0]] + s[1..]; }
      var j := IndexOf(s[1..], c);
      assert s[..j + 1] == [s[0]] + s[1..][..j];
      j + 1
  }

  /** Array.prototype.join with a one-character separator. */
  function Join(parts: seq<string>, sep: char): string
  {
    if |parts| == 0 then ""
    else if |parts| == 1 then parts[0]
    else parts[0] + [sep] + Join(parts[1..], sep)
  }

  /** String.prototype.split with a one-character separator. */
  function Split(s: string, sep: char): (parts: seq<string>)
    ensures |parts| >= 1
    ensures forall i :: 0 <= i < |parts| ==> sep !in parts[i]
    ensures Join(parts, sep) == s
    decreases |s|
  {
    if sep !in s then [s]
    else
      var i := IndexOf(s, sep);
      var rest := Split(s[i + 1..], sep);
      assert s == s[..i] + [sep] + s[i + 1..];
      [s[..i]] + rest
  }

  // ---- Decimal numerals ----

  predicate IsDigit(c: char)
  {
    '0' <= c <= '9'
  }

  function DigitChar(d: nat): (c: char)
    requires d < 10
    ensures IsDigit(c)
  {
    (('0' as int) + d) as char
  }

  function DigitValue(c: char): nat
    requires IsDigit(c)
  {
    (c as int) - ('0' as int)
  }

  /** Number.prototype.toString for a non-negative integer: its decimal numeral. */
  function NatToString(n: nat): (r: string)
    ensures |r| >= 1
    ensures forall i :: 0 <= i < |r| ==> IsDigit(r[i])
    ensures |r| > 1 ==> r[0] != '0'
    ensures r == "0" <==> n == 0
    decreases n
  {
    if n < 10 then [DigitChar(n)] else NatToString(n / 10) + [DigitChar(n % 10)]
  }

  /** Reads a string of digits as a decimal number. */
  function ParseNat(s: string): nat
    requires forall i :: 0 <= i < |s| ==> IsDigit(s[i])
    decreases |s|
  {
    if |s| == 0 then 0 else ParseNat(s[..|s| - 1]) * 10 + DigitValue(s[|s| - 1])
  }

  /** The numeral reads back as the number it was printed from. */
  lemma {:induction false} ParseNatToString(n: nat)
    ensures ParseNat(NatToString(n)) == n
    decreases n
  {
    if n >= 10 {
      var s := NatToString(n);
      assert s[..|s| - 1] == NatToString(n / 10);
      ParseNatToString(n / 10);
    }
  }

  /** Distinct numbers print as distinct numerals. */
  lemma NatToStringInjective(m: nat, n: nat)
    requires NatToString(m) == NatToString(n)
    ensures m == n
  {
    ParseNatToString(m);
    ParseNatToString(n);
  }

  /** Number.prototype.toString for an integer: a sign, then the numeral. */
  function IntToString(n: int): (r: string)
    ensures |r| >= 1
    ensures r[0] == '-' <==> n < 0
    ensures n >= 0 ==> forall i :: 0 <= i < |r| ==> IsDigit(r[i])
    ensures r == "0" <==> n == 0
  {
    if n < 0 then "-" + NatToString(-n) else NatToString(n)
  }
}

=== FILE: theme.dfy ===
/** The three semantic colours the core picks between; the rest of the theme is presentation. */
module Theme {

  datatype Palette = Palette(positive: string, negative: string, neutral: string)

  /** The three colours can be told apart. */
  predicate Distinct(p: Palette)
  {
    p.positive != p.negative && p.positive != p.neutral && p.negative != p.neutral
  }
}

=== FILE: view_all.dfy ===
/**
 * The list shown by `src/screens/ViewAllScreen.js`: the stocks handed to the
 * screen, filtered by the search box and ordered by the chosen sort key.
 * `parseFloat` is a parameter mapping a string to a number; the model keeps
 * the comparison it feeds, not the parsing.
 */
module ViewAll {
  import opened Wrappers
  import opened Strings
  import opened Seqs

  /** The fields of a stock the screen reads. */
  datatype Listing = Listing(ticker: string, price: string, changePercentage: Option<string>)

  // ---- Filtering ----

  /** Case-insensitive containment of the query, as typed, in the ticker. */
  predicate Matches(query: string, l: Listing)
  {
    Includes(Lower(l.ticker), Lower(query))
  }

  /** The `filter` callback of the search box. */
  function MatchesQuery(query: string): (keep: Listing -> bool)
    ensures forall l :: keep(l) <==> Matches(query, l)
  {
    (l: Listing) => Matches(query, l)
  }

  /** Whether a stock survives the search box: a blank query keeps everything. */
  predicate Selected(query: string, l: Listing)
  {
    Trim(query) == [] || Matches(query, l)
  }

  /** The filtering half of `filteredAndSortedStocks`. */
  function Filtered(stocks: seq<Listing>, query: string): (r: seq<Listing>)
    ensures Trim(query) == [] ==> r == stocks
    ensures forall i :: 0 <= i < |r| ==> r[i] in stocks && Selected(query, r[i])
    ensures forall i :: 0 <= i < |stocks| && Selected(query, stocks[i]) ==> stocks[i] in r
    ensures IsSubseq(r, stocks)
    ensures forall l {:trigger multiset(r)[l]} :: multiset(r)[l] == if Selected(query, l) then multiset(stocks)[l] else 0
  {
    if Trim(query) != [] then
      FilterCounts(stocks, MatchesQuery(query));
      Filter(stocks, MatchesQuery(query))
    else (SubseqRefl(stocks); stocks)
  }

  /**
   * The query is not trimmed before matching: once it holds a space, no
   * ticker without a space matches, so the list comes out empty.
   */
  lemma UntrimmedQueryMatchesNothing(stocks: seq<Listing>, query: string)
    requires ' ' in query && Trim(query) != []
    requires forall i :: 0 <= i < |stocks| ==> ' ' !in stocks[i].ticker
    ensures Filtered(stocks, query) == []
  {
    var k :| 0 <= k < |query| && query[k] == ' ';
    forall l | l in stocks ensures !Selected(query, l) {
      SpaceNeverMatches(l.ticker, query, k);
    }
  }

  /** A lower-cased text without spaces never contains a query with one. */
  lemma SpaceNeverMatches(ticker: string, query: string, k: nat)
    requires k < |query| && query[k] == ' ' && ' ' !in ticker
    ensures !Includes(Lower(ticker), Lower(query))
  {
    var t := Lower(ticker);
    var q := Lower(query);
    IncludesIffOccurs(t, q);
    forall i | 0 <= i && i + |q| <= |t| ensures !OccursAt(t, q, i) {
      assert t[i..i + |q|][k] == t[i + k];
      assert ticker[i + k] in ticker;
    }
  }

  // ---- Sort keys ----

  /** Lexicographic order by Unicode code point, standing in for `localeCompare`. */
  predicate LexLe(a: string, b: string)
    decreases |a|
  {
    |a| == 0 || (|b| > 0 && (a[0] < b[0] || (a[0] == b[0] && LexLe(a[1..], b[1..]))))
  }

  lemma {:induction false} LexLeTotal(a: string, b: string)
    ensures LexLe(a, b) || LexLe(b, a)
    decreases |a|
  {
    if |a| > 0 && |b| > 0 && a[0] == b[0] {
      LexLeTotal(a[1..], b[1..]);
    }
  }

  lemma {:induction false} LexLeTransitive(a: string, b: string, c: string)
    requires LexLe(a, b) && LexLe(b, c)
    ensures LexLe(a, c)
    decreases |a|
  {
    if |a| > 0 && a[0] == b[0] && b[0] == c[0] {
      LexLeTransitive(a[1..], b[1..], c[1..]);
    }
  }

  /** Equal strings are the only ones ordered both ways. */
  lemma {:induction false} LexLeAntisymmetric(a: string, b: string)
    requires LexLe(a, b) && LexLe(b, a)
    ensures a == b
    decreases |a|
  {
    if |a| > 0 {
      LexLeAntisymmetric(a[1..], b[1..]);
      assert a == [a[0]] + a[1..] && b == [b[0]] + b[1..];
    }
  }

  /** The 'alphabetical' comparator. */
  predicate TickerOrder(a: Listing, b: Listing)
  {
    LexLe(a.ticker, b.ticker)
  }

  lemma TickerOrderIsTotalPreorder()
    ensures TotalPreorder(TickerOrder)
  {
    forall a: Listing, b: Listing ensures TickerOrder(a, b) || TickerOrder(b, a) {
      LexLeTotal(a.ticker, b.ticker);
    }
    forall a: Listing, b: Listing, c: Listing | TickerOrder(a, b) && TickerOrder(b, c) ensures TickerOrder(a, c) {
      LexLeTransitive(a.ticker, b.ticker, c.ticker);
    }
  }

  /** A comparator putting larger keys first, as `key(b) - key(a)` does. */
  function Descending(key: Listing -> real): (le: (Listing, Listing) -> bool)
    ensures TotalPreorder(le)
    ensures forall a, b :: le(a, b) <==> key(a) >= key(b)
  {
    (a: Listing, b: Listing) => key(a) >= key(b)
  }

  /** Removes the first occurrence of `c`, as `String.prototype.replace` with a string pattern does. */
  function ReplaceFirst(s: string, c: char): (r: string)
    ensures c !in s ==> r == s
    ensures c in s ==> |r| == |s| - 1 && r == s[..IndexOf(s, c)] + s[IndexOf(s, c) + 1..]
  {
    if c in s then s[..IndexOf(s, c)] + s[IndexOf(s, c) + 1..] else s
  }

  /** The text the 'change' comparator parses: missing or empty becomes "0". */
  function ChangeText(changePercentage: Option<string>): (r: string)
    ensures r != []
    ensures changePercentage.None? ==> r == "0"
    ensures changePercentage.Some? && '%' !in changePercentage.value && changePercentage.value != [] ==>
              r == changePercentage.value
  {
    match changePercentage
    case None => "0"
    case Some(s) =>
      var t := ReplaceFirst(s, '%');
      if t == [] then "0" else t
  }

  /** A rendered percentage loses exactly its sign character before parsing. */
  lemma ChangeTextStripsPercent(t: string)
    requires t != [] && '%' !in t
    ensures ChangeText(Some(t + "%")) == t
  {
    var s := t + "%";
    assert s[|t|] == '%';
    assert IndexOf(s, '%') == |t| by {
      assert s[..|t|] == t;
    }
    assert s[..|t|] == t;
  }

  function PriceKey(parse: string -> real): Listing -> real
  {
    (l: Listing) => parse(l.price)
  }

  function ChangeKey(parse: string -> real): Listing -> real
  {
    (l: Listing) => parse(ChangeText(l.changePercentage))
  }

  // ---- The memoised list ----

  /** `filteredAndSortedStocks`; any `sortBy` other than the three keys leaves the filtered order. */
  function FilteredAndSorted(stocks: seq<Listing>, query: string, sortBy: string, parse: string -> real): (r: seq<Listing>)
    ensures multiset(r) == multiset(Filtered(stocks, query))
    ensures sortBy == "alphabetical" ==> forall i, j :: 0 <= i < j < |r| ==> LexLe(r[i].ticker, r[j].ticker)
    ensures sortBy == "price" ==> forall i, j :: 0 <= i < j < |r| ==> parse(r[i].price) >= parse(r[j].price)
    ensures sortBy == "change" ==> forall i, j :: 0 <= i < j < |r| ==>
              parse(ChangeText(r[i].changePercentage)) >= parse(ChangeText(r[j].changePercentage))
    ensures sortBy !in {"alphabetical", "price", "change"} ==> r == Filtered(stocks, query)
  {
    var filtered := Filtered(stocks, query);
    if sortBy == "alphabetical" then
      TickerOrderIsTotalPreorder();
      SortBy(filtered, TickerOrder)
    else if sortBy == "price" then
      var le := Descending(PriceKey(parse));
      var r := SortBy(filtered, le);
      assert forall i, j :: 0 <= i < j < |r| ==> le(r[i], r[j]);
      r
    else if sortBy == "change" then
      var le := Descending(ChangeKey(parse));
      var r := SortBy(filtered, le);
      assert forall i, j :: 0 <= i < j < |r| ==> le(r[i], r[j]);
      r
    else filtered
  }

  /** A stock is listed exactly when it was handed in and survives the search box. */
  lemma ListedIffSelected(stocks: seq<Listing>, query: string, sortBy: string, parse: string -> real, l: Listing)
    ensures l in FilteredAndSorted(stocks, query, sortBy, parse) <==> l in stocks && Selected(query, l)
  {
    var f := Filtered(stocks, query);
    var r := FilteredAndSorted(stocks, query, sortBy, parse);
    assert l in r <==> l in multiset(r);
    assert l in f <==> l in multiset(f);
    if l in f {
      var i :| 0 <= i < |f| && f[i] == l;
    }
    if l in stocks && Selected(query, l) {
      var i :| 0 <= i < |stocks| && stocks[i] == l;
    }
  }

  /** Alphabetical order of distinct tickers does not depend on the order handed in. */
  lemma AlphabeticalIsCanonical(a: seq<Listing>, b: seq<Listing>, query: string, parse: string -> real)
    requires multiset(a) == multiset(b)
    requires forall i, j :: 0 <= i < j < |a| ==> a[i].ticker != a[j].ticker
    ensures FilteredAndSorted(a, query, "alphabetical", parse) == FilteredAndSorted(b, query, "alphabetical", parse)
  {
    TickerOrderIsTotalPreorder();
    var keep := MatchesQuery(query);
    FilterPermutation(a, b, keep);
    var fa := Filtered(a, query);
    var fb := Filtered(b, query);
    assert multiset(fa) == multiset(fb);
    var ra := FilteredAndSorted(a, query, "alphabetical", parse);
    var rb := FilteredAndSorted(b, query, "alphabetical", parse);
    forall p, q | p in ra && q in ra && TickerOrder(p, q) && TickerOrder(q, p) ensures p == q {
      assert p in multiset(ra) && q in multiset(ra);
      assert p in fa && q in fa;
      LexLeAntisymmetric(p.ticker, q.ticker);
      var i :| 0 <= i < |a| && a[i] == p;
      var j :| 0 <= j < |a| && a[j] == q;
      assert i == j;
    }
    SortedUnique(ra, rb, TickerOrder);
  }
}

=== FILE: watchlists.dfy ===
/**
 * The watchlist operations of `src/context/WatchlistContext.js`. Each
 * operation computes the updated list from the current one and then
 * persists it; only a successful write replaces the in-memory list, and a
 * failed write is rethrown to the caller. Ids and creation times, which the
 * source derives from `Date`, are parameters.
 */
module Watchlists {
  import opened Wrappers
  import opened Seqs
  import opened Json

  /** A stock as the screens pass it in; only the ticker matters to the operations. */
  datatype Stock = Stock(ticker: string, details: Json)

  datatype Watchlist = Watchlist(id: string, name: string, stocks: seq<Stock>, createdAt: string)

  /** Some stock of the list has ticker `t`: `stocks.some(s => s.ticker === t)`. */
  predicate HasTicker(stocks: seq<Stock>, t: string)
  {
    exists i :: 0 <= i < |stocks| && stocks[i].ticker == t
  }

  /** No ticker occurs twice. */
  predicate UniqueTickers(stocks: seq<Stock>)
  {
    forall i, j :: 0 <= i < j < |stocks| ==> stocks[i].ticker != stocks[j].ticker
  }

  /** The `filter` callback of `deleteWatchlist`: keep the watchlists with another id. */
  function IdOtherThan(id: string): (keep: Watchlist -> bool)
    ensures forall w :: keep(w) <==> w.id != id
  {
    (w: Watchlist) => w.id != id
  }

  /** The `filter` callback of `removeStockFromWatchlist`: keep the stocks with another ticker. */
  function TickerOtherThan(ticker: string): (keep: Stock -> bool)
    ensures forall s :: keep(s) <==> s.ticker != ticker
  {
    (s: Stock) => s.ticker != ticker
  }

  /** The `filter` callback of `getWatchlistsForStock`: keep the watchlists holding the ticker. */
  function Holding(ticker: string): (keep: Watchlist -> bool)
    ensures forall w :: keep(w) <==> HasTicker(w.stocks, ticker)
  {
    (w: Watchlist) => HasTicker(w.stocks, ticker)
  }

  // ---- The list computations ----

  /** The list `createWatchlist` saves: the new watchlist appended. */
  function Created(ws: seq<Watchlist>, w: Watchlist): (r: seq<Watchlist>)
    ensures |r| == |ws| + 1 && r[..|ws|] == ws && r[|ws|] == w
  {
    ws + [w]
  }

  /** The list `deleteWatchlist` saves: every watchlist with another id, in order. */
  function Deleted(ws: seq<Watchlist>, id: string): (r: seq<Watchlist>)
    ensures forall i :: 0 <= i < |r| ==> r[i].id != id && r[i] in ws
    ensures forall i :: 0 <= i < |ws| && ws[i].id != id ==> ws[i] in r
    ensures IsSubseq(r, ws)
    ensures forall w {:trigger multiset(r)[w]} :: multiset(r)[w] == if w.id != id then multiset(ws)[w] else 0
  {
    FilterCounts(ws, IdOtherThan(id));
    Filter(ws, IdOtherThan(id))
  }

  /** The `map` callback of `addStockToWatchlist`. */
  function AddTo(w: Watchlist, id: string, stock: Stock): Watchlist
  {
    if w.id == id && !HasTicker(w.stocks, stock.ticker) then w.(stocks := w.stocks + [stock]) else w
  }

  /** The list `addStockToWatchlist` saves. */
  function StockAdded(ws: seq<Watchlist>, id: string, stock: Stock): (r: seq<Watchlist>)
    ensures |r| == |ws|
    ensures forall i :: 0 <= i < |ws| ==> r[i].id == ws[i].id && r[i].name == ws[i].name && r[i].createdAt == ws[i].createdAt
    ensures forall i :: 0 <= i < |ws| && (ws[i].id != id || HasTicker(ws[i].stocks, stock.ticker)) ==> r[i] == ws[i]
    ensures forall i :: 0 <= i < |ws| && ws[i].id == id ==> HasTicker(r[i].stocks, stock.ticker)
    ensures forall i :: 0 <= i < |ws| && ws[i].id == id && !HasTicker(ws[i].stocks, stock.ticker) ==>
              r[i].stocks == ws[i].stocks + [stock]
  {
    var r := seq(|ws|, i requires 0 <= i < |ws| => AddTo(ws[i], id, stock));
    assert forall i :: 0 <= i < |ws| && ws[i].id == id && !HasTicker(ws[i].stocks, stock.ticker) ==>
             r[i].stocks[|ws[i].stocks|] == stock;
    r
  }

  /** The `map` callback of `removeStockFromWatchlist`. */
  function RemoveFrom(w: Watchlist, id: string, ticker: string): Watchlist
  {
    if w.id == id then w.(stocks := Filter(w.stocks, TickerOtherThan(ticker))) else w
  }

  /** The list `removeStockFromWatchlist` saves. */
  function StockRemoved(ws: seq<Watchlist>, id: string, ticker: string): (r: seq<Watchlist>)
    ensures |r| == |ws|
    ensures forall i :: 0 <= i < |ws| ==> r[i].id == ws[i].id && r[i].name == ws[i].name && r[i].createdAt == ws[i].createdAt
    ensures forall i :: 0 <= i < |ws| && ws[i].id != id ==> r[i] == ws[i]
    ensures forall i :: 0 <= i < |ws| && ws[i].id == id ==>
              !HasTicker(r[i].stocks, ticker) && IsSubseq(r[i].stocks, ws[i].stocks)
    ensures forall i, j :: 0 <= i < |ws| && ws[i].id == id && 0 <= j < |ws[i].stocks| && ws[i].stocks[j].ticker != ticker ==>
              ws[i].stocks[j] in r[i].stocks
    ensures forall i, s {:trigger multiset(r[i].stocks)[s]} :: 0 <= i < |ws| && ws[i].id == id ==>
              multiset(r[i].stocks)[s] == if s.ticker != ticker then multiset(ws[i].stocks)[s] else 0
  {
    var r := seq(|ws|, i requires 0 <= i < |ws| => RemoveFrom(ws[i], id, ticker));
    assert forall i :: 0 <= i < |ws| && ws[i].id == id ==>
             forall s {:trigger multiset(r[i].stocks)[s]} :: multiset(r[i].stocks)[s] == if s.ticker != ticker then multiset(ws[i].stocks)[s] else 0 by {
      forall i | 0 <= i < |ws| && ws[i].id == id {
        FilterCounts(ws[i].stocks, TickerOtherThan(ticker));
      }
    }
    r
  }

  /** `getWatchlistsForStock`: the watchlists holding the ticker, in order. */
  function WatchlistsForStock(ws: seq<Watchlist>, ticker: string): (r: seq<Watchlist>)
    ensures forall i :: 0 <= i < |r| ==> r[i] in ws && HasTicker(r[i].stocks, ticker)
    ensures forall i :: 0 <= i < |ws| && HasTicker(ws[i].stocks, ticker) ==> ws[i] in r
    ensures IsSubseq(r, ws)
    ensures forall w {:trigger multiset(r)[w]} :: multiset(r)[w] == if HasTicker(w.stocks, ticker) then multiset(ws)[w] else 0
  {
    FilterCounts(ws, Holding(ticker));
    Filter(ws, Holding(ticker))
  }

  /** `isStockInWatchlist`: it agrees with `getWatchlistsForStock` being non-empty. */
  function IsStockInWatchlist(ws: seq<Watchlist>, ticker: string): (r: bool)
    ensures r <==> |WatchlistsForStock(ws, ticker)| > 0
  {
    var held := WatchlistsForStock(ws, ticker);
    var r := exists i :: 0 <= i < |ws| && HasTicker(ws[i].stocks, ticker);
    assert r ==> |held| > 0 by {
      if r {
        var i :| 0 <= i < |ws| && HasTicker(ws[i].stocks, ticker);
        assert ws[i] in held;
      }
    }
    assert |held| > 0 ==> r by {
      if |held| > 0 {
        assert held[0] in ws;
        var i :| 0 <= i < |ws| && ws[i] == held[0];
        assert HasTicker(ws[i].stocks, ticker);
      }
    }
    r
  }

  // ---- Relations between the computations ----

  /** Every watchlist keeps its tickers unique. */
  predicate AllUnique(ws: seq<Watchlist>)
  {
    forall i :: 0 <= i < |ws| ==> UniqueTickers(ws[i].stocks)
  }

  /** Adding never creates a duplicate ticker. */
  lemma AddKeepsTickersUnique(ws: seq<Watchlist>, id: string, stock: Stock)
    requires AllUnique(ws)
    ensures AllUnique(StockAdded(ws, id, stock))
  {
    var r := StockAdded(ws, id, stock);
    forall i | 0 <= i < |ws| ensures UniqueTickers(r[i].stocks) {
      if ws[i].id == id && !HasTicker(ws[i].stocks, stock.ticker) {
        var s := ws[i].stocks;
        assert r[i].stocks == s + [stock];
        forall a, b | 0 <= a < b < |s| + 1 ensures r[i].stocks[a].ticker != r[i].stocks[b].ticker {
          if b == |s| {
            assert r[i].stocks[a] == s[a];
          }
        }
      }
    }
  }

  /** Filtering keeps tickers unique. */
  lemma {:induction false} FilterKeepsUnique(stocks: seq<Stock>, p: Stock -> bool)
    requires UniqueTickers(stocks)
    ensures UniqueTickers(Filter(stocks, p))
    decreases |stocks|
  {
    if |stocks| > 0 {
      var rest := Filter(stocks[1..], p);
      FilterKeepsUnique(stocks[1..], p);
      if p(stocks[0]) {
        var r := [stocks[0]] + rest;
        forall a, b | 0 <= a < b < |r| ensures r[a].ticker != r[b].ticker {
          if a == 0 {
            assert r[b] == rest[b - 1] && rest[b - 1] in stocks[1..];
            var j :| 0 <= j < |stocks[1..]| && stocks[1..][j] == rest[b - 1];
            assert stocks[j + 1] == rest[b - 1];
          }
        }
      }
    }
  }

  /** Removing keeps tickers unique. */
  lemma RemoveKeepsTickersUnique(ws: seq<Watchlist>, id: string, ticker: string)
    requires AllUnique(ws)
    ensures AllUnique(StockRemoved(ws, id, ticker))
  {
    var r := StockRemoved(ws, id, ticker);
    forall i | 0 <= i < |ws| ensures UniqueTickers(r[i].stocks) {
      if ws[i].id == id {
        FilterKeepsUnique(ws[i].stocks, TickerOtherThan(ticker));
      }
    }
  }

  /** After an add, the stock is in some watchlist if the target exists. */
  lemma AddedIsFound(ws: seq<Watchlist>, id: string, stock: Stock, i: nat)
    requires i < |ws| && ws[i].id == id
    ensures IsStockInWatchlist(StockAdded(ws, id, stock), stock.ticker)
  {
    assert HasTicker(StockAdded(ws, id, stock)[i].stocks, stock.ticker);
  }

  /** An unknown id leaves the whole list unchanged under add and remove. */
  lemma UnknownIdChangesNothing(ws: seq<Watchlist>, id: string, stock: Stock, ticker: string)
    requires forall i :: 0 <= i < |ws| ==> ws[i].id != id
    ensures StockAdded(ws, id, stock) == ws
    ensures StockRemoved(ws, id, ticker) == ws
  {
  }

  /** Removing a freshly added stock restores the list. */
  lemma RemoveUndoesAdd(ws: seq<Watchlist>, id: string, stock: Stock)
    requires forall i :: 0 <= i < |ws| && ws[i].id == id ==> !HasTicker(ws[i].stocks, stock.ticker)
    ensures StockRemoved(StockAdded(ws, id, stock), id, stock.ticker) == ws
  {
    var added := StockAdded(ws, id, stock);
    var r := StockRemoved(added, id, stock.ticker);
    forall i | 0 <= i < |ws| ensures r[i] == ws[i] {
      if ws[i].id == id {
        var s := ws[i].stocks;
        var p := TickerOtherThan(stock.ticker);
        FilterSnoc(s, stock, p);
        FilterKeepsAll(s, p);
        assert r[i].stocks == Filter(s + [stock], p);
      }
    }
  }

  /** Deleting a freshly created watchlist restores the list, when its id was new. */
  lemma DeleteUndoesCreate(ws: seq<Watchlist>, w: Watchlist)
    requires forall i :: 0 <= i < |ws| ==> ws[i].id != w.id
    ensures Deleted(Created(ws, w), w.id) == ws
  {
    var p := IdOtherThan(w.id);
    FilterSnoc(ws, w, p);
    FilterKeepsAll(ws, p);
  }

  // ---- Persistence ----

  /** `AsyncStorage.setItem` rejected. */
  datatype SaveError = SaveFailed

  /** The provider's state: the list in memory and the list last written to storage. */
  datatype Book = Book(lists: seq<Watchlist>, saved: seq<Watchlist>)

  /** What an operation leaves behind and what its promise settles with. */
  datatype Commit<+T> = Commit(book: Book, result: Result<T, SaveError>)

  /** `saveWatchlists`: write, then replace the in-memory list; a failed write changes neither and rethrows. */
  function SaveWatchlists(book: Book, updated: seq<Watchlist>, saveOk: bool): (r: Commit<()>)
    ensures r.result.Success? <==> saveOk
    ensures r.result.Success? ==> r.book.lists == updated && r.book.saved == updated
    ensures r.result.Failure? ==> r.book == book
  {
    if saveOk then Commit(Book(updated, updated), Success(())) else Commit(book, Failure(SaveFailed))
  }

  /** What reading the saved watchlists yields: a failed read or parse, nothing stored, or a parsed list. */
  datatype Saved = Unreadable | Nothing | Parsed(lists: seq<Watchlist>)

  /** `loadWatchlists`: a parsed list replaces the in-memory one; otherwise nothing changes. */
  function LoadWatchlists(book: Book, saved: Saved): (r: Book)
    ensures saved.Parsed? ==> r.lists == saved.lists && r.saved == saved.lists
    ensures !saved.Parsed? ==> r == book
  {
    if saved.Parsed? then Book(saved.lists, saved.lists) else book
  }

  /** Loading a list with unique tickers per watchlist leaves a consistent state. */
  lemma LoadKeepsConsistency(book: Book, saved: Saved)
    requires Consistent(book)
    requires saved.Parsed? ==> AllUnique(saved.lists)
    ensures Consistent(LoadWatchlists(book, saved))
  {
  }

  /** `createWatchlist`; `id` and `createdAt` stand for the `Date`-derived values. */
  function CreateWatchlist(book: Book, name: string, id: string, createdAt: string, saveOk: bool): (r: Commit<Watchlist>)
    ensures r.result.Success? ==>
              r.result.value == Watchlist(id, name, [], createdAt) && r.book.lists == book.lists + [r.result.value]
    ensures r.result.Failure? ==> r.book == book
    ensures r.result.Success? <==> saveOk
    ensures r.result.Success? ==> r.book.saved == r.book.lists
  {
    var w := Watchlist(id, name, [], createdAt);
    var c := SaveWatchlists(book, Created(book.lists, w), saveOk);
    Commit(c.book, if c.result.Success? then Success(w) else Failure(c.result.error))
  }

  /** `deleteWatchlist`. */
  function DeleteWatchlist(book: Book, id: string, saveOk: bool): (r: Commit<()>)
    ensures r.result.Success? ==> r.book.lists == Deleted(book.lists, id)
    ensures r.result.Failure? ==> r.book == book
    ensures r.result.Success? <==> saveOk
    ensures r.result.Success? ==> r.book.saved == r.book.lists
  {
    SaveWatchlists(book, Deleted(book.lists, id), saveOk)
  }

  /** `addStockToWatchlist`. */
  function AddStockToWatchlist(book: Book, id: string, stock: Stock, saveOk: bool): (r: Commit<()>)
    ensures r.result.Success? ==> r.book.lists == StockAdded(book.lists, id, stock)
    ensures r.result.Failure? ==> r.book == book
    ensures r.result.Success? <==> saveOk
    ensures r.result.Success? ==> r.book.saved == r.book.lists
  {
    SaveWatchlists(book, StockAdded(book.lists, id, stock), saveOk)
  }

  /** `removeStockFromWatchlist`. */
  function RemoveStockFromWatchlist(book: Book, id: string, ticker: string, saveOk: bool): (r: Commit<()>)
    ensures r.result.Success? ==> r.book.lists == StockRemoved(book.lists, id, ticker)
    ensures r.result.Failure? ==> r.book == book
    ensures r.result.Success? <==> saveOk
    ensures r.result.Success? ==> r.book.saved == r.book.lists
  {
    SaveWatchlists(book, StockRemoved(book.lists, id, ticker), saveOk)
  }

  /** The in-memory list equals the stored one and keeps its tickers unique. */
  predicate Consistent(book: Book)
  {
    book.lists == book.saved && AllUnique(book.lists)
  }

  /** Every operation keeps the book consistent, whether its write succeeds or fails. */
  lemma OperationsKeepConsistency(book: Book, name: string, id: string, createdAt: string, stock: Stock,
                                  ticker: string, saveOk: bool)
    requires Consistent(book)
    ensures Consistent(CreateWatchlist(book, name, id, createdAt, saveOk).book)
    ensures Consistent(DeleteWatchlist(book, id, saveOk).book)
    ensures Consistent(AddStockToWatchlist(book, id, stock, saveOk).book)
    ensures Consistent(RemoveStockFromWatchlist(book, id, ticker, saveOk).book)
  {
    var created := Created(book.lists, Watchlist(id, name, [], createdAt));
    assert AllUnique(created) by {
      forall i | 0 <= i < |created| ensures UniqueTickers(created[i].stocks) {
        if i < |book.lists| { assert created[i] == book.lists[i]; }
      }
    }
    var deleted := Deleted(book.lists, id);
    assert AllUnique(deleted) by {
      forall i | 0 <= i < |deleted| ensures UniqueTickers(deleted[i].stocks) {
        var j :| 0 <= j < |book.lists| && book.lists[j] == deleted[i];
      }
    }
    AddKeepsTickersUnique(book.lists, id, stock);
    RemoveKeepsTickersUnique(book.lists, id, ticker);
  }
}

=== FILE: wrappers.dfy ===
/** Absent-or-present values and success-or-failure results, shared by every module. */
module Wrappers {

  /** `None` plays the part of JavaScript's `null`/`undefined` where the source tests for it. */
  datatype Option<+T> = None | Some(value: T)

  /** The outcome of an operation that either returns a value or throws. */
  datatype Result<+R, +E> = Success(value: R) | Failure(error: E)
}
